=== FILE: README.md ===
# Calculator state machine

A Dafny model of the calculator behind the Angular widget in
`src/app/app.component.ts`. The class `AppComponent` (lines 175-274) keeps
four fields: `currentOperand` (the display), `previousOperand` (the staged
left operand, `''` when none), `operation` (the pending operator or `null`)
and `waitingForOperand` (whether the next key starts a new operand). Five
methods update those fields in place: `clear`, `delete`, `appendNumber`,
`chooseOperation` and `compute`. A private helper, `formatNumber`, turns a
computed number into display text.

The project is split as follows.

- `Calculator.dfy` is `class AppComponent`. It has the four fields and the
  five methods, with the early `return`s of the source. `chooseOperation`
  calls `compute` as a nested update. Each method is proved to perform the
  transition of the same name in `CalculatorState` on its fields. Each is
  also proved to keep the display valid when fed keypad tokens: never empty,
  and at most one point in either operand.
- `CalculatorState.dfy` gives the same transitions on a `State` value. It
  also holds the properties stated across several calls: clear, delete,
  typing, compute, division by zero and chaining.
- `KeyEntry.dfy` says what the display shows after any run of digit and
  point keys typed onto `0`, and proves that `appendNumber`, applied key by
  key, produces exactly that text.
- `JsNumber.dfy` models JavaScript numbers as
  `Finite(real) | PosInf | NegInf | NaN`. It covers `+ - * /` with
  IEEE-754 overflow to ±Infinity, underflow to 0, and the NaN and infinity
  rules.
- `FloatParser.dfy` is `parseFloat`. It skips leading
  white space and reads an optional sign. It then reads `Infinity`, or the
  longest prefix of the form digits, point, digits, exponent. It yields NaN
  when no such prefix exists.
- `ScientificNotation.dfy`, `NumberFormat.dfy` and `FormatRoundTrip.dfy`
  cover `formatNumber`:
  - the `Error` branch;
  - the range test;
  - `toExponential(6)`, a seven-digit significand nearest the value, ties
    going up;
  - `Math.round(num * 1e8) / 1e8` printed by `toString`.

  `FormatRoundTrip.dfy` also proves that `parseFloat` reads each kind of
  display text back.
- `Decimal.dfy` holds digit strings and powers of ten.
- `Scenarios.dfy` restates the component's non-UI unit tests
  (`src/app/app.component.spec.ts`), one member per test:
  - The number-input, clear and delete, operator, arithmetic, error-handling
    and complex-operation tests are methods. Each drives a fresh
    `AppComponent` as the test does, and its postcondition is what the test
    expects.
  - The number-formatting tests (spec.ts:324-356) call the private
    `formatNumber` directly, so they are lemmas about
    `NumberFormat.FormatNumber`.
  - `ChainedExpression` and `ChainedExpressionStaged` are not unit tests.
    They drive the key sequence behind the finding below, once on the code
    as written and once with corrected chaining.

Three behaviours of the code worth knowing:

- Pressing `.` while waiting for an operand shows `.`, not `0.`
  (`CalculatorState.AppendNumber`).
- `appendNumber` and `chooseOperation` accept any string, as the code does.
  The display invariants are proved for the keypad tokens.
- Conventional chaining keeps an operand staged while an operator is
  pending. The code breaks this when operators are chained
  (`CalculatorState.ChainingBreaksStaging`); see Findings.

## Model

| member | source | states |
|---|---|---|
| Calculator.AppComponent.constructor | src/app/app.component.ts:176-179 | a new component shows `0`, has nothing staged, no operator, and is not waiting |
| Calculator.AppComponent.Clear | src/app/app.component.ts:181-186 | whatever the fields held, they become exactly the initial state, which is valid |
| Calculator.AppComponent.Delete | src/app/app.component.ts:188-194 | the fields become `CalculatorState.Delete` of the old fields; a valid display stays valid |
| Calculator.AppComponent.AppendNumber | src/app/app.component.ts:196-208 | the fields become `CalculatorState.AppendNumber` of the old fields and the token, including the early return; a keypad token keeps a valid display valid |
| Calculator.AppComponent.ChooseOperation | src/app/app.component.ts:210-219 | the fields become `CalculatorState.ChooseOperation` of the old fields, the nested `compute` included; validity is kept |
| Calculator.AppComponent.Compute | src/app/app.component.ts:221-258 | the fields become `CalculatorState.Compute` of the old fields, through each early return; validity is kept |
| CalculatorState.Delete | src/app/app.component.ts:188-194 | the other three fields are unchanged; the display is never empty; a display longer than one character loses exactly its last character, otherwise it becomes `0` |
| CalculatorState.AppendNumber | src/app/app.component.ts:196-208 | the staged operand and operator are unchanged and the state stops waiting; while waiting, the token replaces the display (so `.` gives `.`) |
| CalculatorState.Evaluate | src/app/app.component.ts:226-252 | nothing happens exactly when an operand is NaN or the operator is not one of `+ - * /`; the division-by-zero error happens exactly when `/` meets a divisor that reads as 0 |
| CalculatorState.Compute | src/app/app.component.ts:221-258 | either the state is unchanged, or the staged operand and operator are cleared and the state waits for a new operand |
| CalculatorState.ChooseOperation | src/app/app.component.ts:210-219 | the operator is recorded and the state waits; with nothing staged, the display is staged and kept; with an operand staged while waiting, only the operator changes |
| CalculatorState.InitialValid | src/app/app.component.ts:176-179 | the initial display is non-empty with at most one point |
| CalculatorState.DeleteValid | src/app/app.component.ts:188-194 | delete keeps the display non-empty with at most one point |
| CalculatorState.AppendNumberValid | src/app/app.component.ts:196-208 | typing a digit or the point never puts a second point on the display |
| CalculatorState.ComputeValid | src/app/app.component.ts:221-258 | compute leaves a non-empty display with at most one point (formatted results included) |
| CalculatorState.ChooseOperationValid | src/app/app.component.ts:210-219 | choosing an operator keeps the display valid |
| CalculatorState.DeleteUndoesAppend | src/app/app.component.ts:188-208 | when a token is appended (not ignored, not replacing `0`), one delete restores the previous state exactly |
| CalculatorState.DeleteTimesDrops | src/app/app.component.ts:188-194 | k deletes drop the last k characters, or leave `0` once at most one would remain; the other fields are unchanged |
| CalculatorState.ComputeOutcome | src/app/app.component.ts:226-257 | no change on a NaN operand or unknown operator; otherwise the three resets; `Error` after a division by zero; after a result, the display is `formatNumber` of that result, and it is `Error` exactly when the result is not finite |
| CalculatorState.ComputeIdempotent | src/app/app.component.ts:221-228 | a second compute right after the first changes nothing |
| CalculatorState.DivisionByZeroRecovery | src/app/app.component.ts:240-247 | a division by zero yields (`Error`, `''`, null, waiting), and the next `appendNumber(t)` shows exactly `t` |
| CalculatorState.ComputeReadsBack | src/app/app.component.ts:254-272 | a result in the fixed range is shown so that `parseFloat` reads back the result rounded to eight decimals, within 5e-9 of it |
| CalculatorState.ChainingClearsStaged | src/app/app.component.ts:213-218 | chaining an operator after a second operand shows the folded result, with `previousOperand` empty, the new operator set and waiting |
| CalculatorState.ComputeAfterChaining | src/app/app.component.ts:210-228 | after a chained operator, whatever is typed next, compute changes nothing |
| CalculatorState.ChainingBreaksStaging | src/app/app.component.ts:211-218 | `10 + 5` then `*`: an operand was staged before; afterwards an operator is pending with none staged |
| CalculatorState.ChooseOperationStaging | src/app/app.component.ts:210-219 | corrected chaining: records the operator and waits; agrees with the source whenever nothing is staged or the state is waiting |
| CalculatorState.StagingKeepsOperand | src/app/app.component.ts:210-219 | under corrected chaining, every pending operator has a staged operand, and validity is kept |
| CalculatorState.ChainedUsesResult | src/app/app.component.ts:210-219 | under corrected chaining, the folded result is the left operand of the next compute |
| CalculatorState.OperandStagedPreserved | src/app/app.component.ts:188-258 | delete, appendNumber and compute keep an operand staged under a pending operator |
| KeyEntry.EnteredText | src/app/app.component.ts:196-208 | the text for a run of keys is non-empty, has no leading zero except before a point, and has a point exactly when a point was typed |
| KeyEntry.EnteredSnoc | src/app/app.component.ts:201-206 | one more key changes that text exactly as `appendNumber` changes the display |
| KeyEntry.TypedShowsEntered | src/app/app.component.ts:196-208 | typing any run of digits and points onto a display of `0` shows that text and changes no other field |
| KeyEntry.TypedFromInitial | src/app/app.component.ts:181-208 | the same from the initial (or cleared) state |
| JsNumber.ToDoubleRange | src/app/app.component.ts:230-252 | an arithmetic value is finite exactly below the double's overflow bound, +Infinity at or above it, and otherwise exact or flushed to zero |
| JsNumber.FiniteArithmeticIsNumber | src/app/app.component.ts:230-252 | `+ - *` of two finite numbers, and `/` by a non-zero one, are never NaN |
| FloatParser.ParseFloat | src/app/app.component.ts:223-224 | `parseFloat`: a negative result, finite or infinite, comes only from a minus sign after the white space, and +Infinity never follows one |
| FloatParser.ParseFloatRejects | src/app/app.component.ts:223-228 | `''`, `.`, `-` and `Error` read as NaN, so compute ignores them |
| FloatParser.ParseFloatNaN | src/app/app.component.ts:223-226 | `parseFloat` gives NaN exactly when no numeric literal starts the unsigned text |
| FloatParser.ParseFloatLetter | src/app/app.component.ts:223-226 | text starting with a letter other than `I` reads as NaN |
| FloatParser.ParseInteger | src/app/app.component.ts:223-224 | a run of digits reads as its value |
| FloatParser.ParseFixedPoint | src/app/app.component.ts:223-224 | digits, a point and digits read as their decimal value |
| FloatParser.ParseNegated | src/app/app.component.ts:223-224 | a minus sign before a numeral negates its value |
| FloatParser.ParseExponentialText | src/app/app.component.ts:223-224 | text of the form d.ffffffe±x reads as the value it denotes |
| ScientificNotation.MathRound | src/app/app.component.ts:271 | `Math.round` lies within one half of its argument, ties going up |
| ScientificNotation.DecimalExponent | src/app/app.component.ts:267 | the exponent e of a positive value satisfies 10^e <= x < 10^(e+1) |
| ScientificNotation.Significand7 | src/app/app.component.ts:267 | the significand has seven digits; the exponent is the value's own decimal exponent, or the next one when rounding carries; the written value is within half a unit of the seventh significant digit, a tie going up (`SevenDigitsOf`) |
| ScientificNotation.SevenDigitsUnique | src/app/app.component.ts:267 | at most one significand and exponent write a value that way, so `Significand7` is the only seven-digit form `toExponential(6)` can print |
| NumberFormat.FormatNumber | src/app/app.component.ts:260-273 | `formatNumber`: `Error` for ±Infinity and NaN; otherwise a non-empty text that starts with a digit or a minus sign |
| NumberFormat.FormatNumberError | src/app/app.component.ts:261-263 | `formatNumber` gives `Error` exactly for ±Infinity and NaN |
| NumberFormat.FormatNumberShape | src/app/app.component.ts:260-273 | the display text is never empty and never holds two points |
| NumberFormat.FormatFiniteShape | src/app/app.component.ts:265-272 | a finite value is shown starting with a digit or a minus sign |
| NumberFormat.FormatExponentialForm | src/app/app.component.ts:265-272 | a finite value is shown as `-?d.dddddde[+-]d+` exactly when its magnitude is above 999999999 or below 0.000001 and it is not 0; the first digit, after any minus sign, is then not `0`; otherwise the text holds no `e` |
| NumberFormat.IntegerDisplay | src/app/app.component.ts:270-272 | a whole number of at most nine digits is shown as its numeral, with a minus sign when negative |
| FormatRoundTrip.FixedRoundTrip | src/app/app.component.ts:271-272 | the printed form of n/10^8 reads back as exactly n/10^8 |
| FormatRoundTrip.FormatFixedRoundTrip | src/app/app.component.ts:270-272 | in the fixed range the display reads back as the value rounded to eight decimals, within 5e-9 of the value |
| FormatRoundTrip.ExponentialRoundTrip | src/app/app.component.ts:267 | `toExponential(6)` text reads back as the signed seven-digit significand value |
| FormatRoundTrip.FormatExponentialRoundTrip | src/app/app.component.ts:266-268 | in the exponential range the display reads back as the value's seven-significant-digit form (`SevenDigitsOf`), with the value's sign |
| Scenarios.AppendDigits | src/app/app.component.spec.ts:55-61 | `5`, `3` shows `53` |
| Scenarios.ReplaceInitialZero | src/app/app.component.spec.ts:63-68 | `7` replaces the initial `0` |
| Scenarios.DecimalPointInput | src/app/app.component.spec.ts:70-77 | `3 . 1 4` shows `3.14` |
| Scenarios.SecondPointIgnored | src/app/app.component.spec.ts:79-87 | `3 . 1 . 4` shows `3.14` |
| Scenarios.PointFirst | src/app/app.component.spec.ts:89-95 | `.` then `5` shows `0.` then `0.5` |
| Scenarios.ReplaceWhenWaiting | src/app/app.component.spec.ts:97-105 | while waiting, `5` replaces `10` and waiting ends |
| Scenarios.ClearResets | src/app/app.component.spec.ts:109-122 | clear restores the initial state |
| Scenarios.DeleteOneDigit | src/app/app.component.spec.ts:135-141 | deleting from `123` shows `12` |
| Scenarios.DeleteLastDigit | src/app/app.component.spec.ts:143-157 | deleting from `5`, then from `0`, shows `0` |
| Scenarios.DeleteDigits | src/app/app.component.spec.ts:159-170 | three deletes take `12.34` to `12` |
| Scenarios.StageOperand | src/app/app.component.spec.ts:183-191 | `10 +` stages `10` and waits |
| Scenarios.ChainOperators | src/app/app.component.spec.ts:193-204 | `10 + 5 *` shows `15` with `*` pending and `previousOperand` empty |
| Scenarios.SwapOperator | src/app/app.component.spec.ts:206-214 | a second operator while waiting only swaps the operator |
| Scenarios.Addition | src/app/app.component.spec.ts:222-232 | `10 + 5 =` shows `15` and clears the staged operand and operator |
| Scenarios.Subtraction | src/app/app.component.spec.ts:234-242 | `10 - 3 =` shows `7` |
| Scenarios.Multiplication | src/app/app.component.spec.ts:244-252 | `6 * 7 =` shows `42` |
| Scenarios.Division | src/app/app.component.spec.ts:254-262 | `20 / 4 =` shows `5` |
| Scenarios.DecimalSum | src/app/app.component.spec.ts:264-272 | `1.5 + 2.7 =` shows `4.2`, which reads back as 4.2 |
| Scenarios.FloatingPrecision | src/app/app.component.spec.ts:274-282 | `0.1 + 0.2 =` shows `0.3`, which reads back as 0.3 |
| Scenarios.DivideByZero | src/app/app.component.spec.ts:286-297 | `10 / 0 =` gives (`Error`, `''`, null, waiting) |
| Scenarios.InvalidOperator | src/app/app.component.spec.ts:299-309 | an unknown operator leaves every field as it was |
| Scenarios.NaNInput | src/app/app.component.spec.ts:311-320 | an unreadable staged operand leaves every field as it was |
| Scenarios.FormatLarge | src/app/app.component.spec.ts:324-329 | 1000000000 is shown as `1.000000e+9` |
| Scenarios.FormatSmall | src/app/app.component.spec.ts:331-336 | 0.0000001 is shown as `1.000000e-7` |
| Scenarios.FormatNonFinite | src/app/app.component.spec.ts:338-345 | ±Infinity and NaN are shown as `Error` |
| Scenarios.FormatWhole | src/app/app.component.spec.ts:347-351 | 0 and -42 are shown as `0` and `-42` |
| Scenarios.FormatFraction | src/app/app.component.spec.ts:347-351 | 123.456 is shown as `123.456` |
| Scenarios.FormatRounding | src/app/app.component.spec.ts:353-356 | 0.30000000000000004 is shown as `0.3` |
| Scenarios.TypedAddition | src/app/app.component.spec.ts:405-414 | `10 +`, then the key `5`, then `=` shows `15` |
| Scenarios.ConsecutiveEquals | src/app/app.component.spec.ts:416-427 | a second `=` after `10 + 5 =` still shows `15` |
| Scenarios.ResetAfterError | src/app/app.component.spec.ts:442-455 | after `10 / 0 =`, clear and `5` show `5` |
| Scenarios.ConsecutiveEqualsSet | src/app/app.component.spec.ts:429-440 | with `5` set on the display directly, `10 + 5 =` shows `15` and a second `=` changes nothing |
| Scenarios.ChainedExpression | src/app/app.component.ts:210-219 | on the component as written, `1 0 + 5 * 2 =` ends showing `2` with `*` still pending |
| Scenarios.ChainedExpressionStaged | src/app/app.component.ts:210-219 | with corrected chaining, the same keys stage `15` and `=` shows `30` |

## Left out

- Double rounding is not modelled. Arithmetic, `num * 100000000`, the division by 100000000 and the value `parseFloat` produces are exact reals, bounded only by the double's overflow and underflow thresholds. The 53-bit significand rounding is not modelled. So 0.1 + 0.2 is exactly 0.3 here; in JavaScript it is 0.30000000000000004, which `formatNumber` rounds to the same `0.3`.
- Negative zero is not distinguished from zero. Both print as `0`.
- `toString` is modelled on the exact decimal expansion of a value rounded to eight decimals. It does not model the shortest round-trip digit choice of a double.
- FormatRoundTrip.FixedRoundTrip: stated for |n| <= 10^29 only. That keeps n/10^8 within 10^21, where the model's number is exact. The fixed branch of `formatNumber` only reaches |n| < 10^17.
- A tie between two seven-digit significands goes to the larger one. This is the tie rule of `toExponential`, applied here to exact values rather than doubles.
- CalculatorState.Delete and Calculator.AppComponent.Delete: lengths and slicing count Unicode scalar values, not the UTF-16 code units of a JavaScript string. On a display ending in a character outside the Basic Multilingual Plane, `delete` in JavaScript leaves a lone surrogate where the model shows `0` or drops the whole character. Keypad tokens are ASCII, so no keypad sequence is affected.
- `parseFloat` is modelled for the literal grammar only. That is white space, sign, `Infinity`, digits, point and exponent. The value is not rounded to the nearest double.
- The Angular template and styles are left out, because they are user interface (src/app/app.component.ts:4-174).
- The DOM and button-click tests (`src/app/app.component.spec.ts:32-51`, `124-131`, `172-179`, `359-401`) are left out, for the same reason.
- The Cucumber/Puppeteer acceptance harness (`features/`, `cucumber.conf.js`) is left out. It is browser automation and asynchronous I/O.
- The process scripts (`run-cucumber-tests.js`, `run-cucumber-interactive.js`) are left out. They spawn child processes and handle signals.
- Tool configuration (`karma.conf.js`, `eslint.config.js`, `cucumber.config.js`) is left out. It contains no logic.

## Findings

| source | as written | input that shows it | evidently intended | confidence | as-written member | corrected member |
|---|---|---|---|---|---|---|
| src/app/app.component.ts:213-218 | Chaining an operator after a second operand calls `compute()`. That call clears `previousOperand`, so the new operator is recorded with no left operand. The next `=` then reads `''` as NaN and does nothing. | keys `1 0 + 5 * 2 =` (the display ends at `2`) | the folded result `15` is staged as the left operand of `*`, and `=` shows `30` (conventional chaining; every pending operator has a staged operand) | high, not executed | CalculatorState.ChainingBreaksStaging | CalculatorState.ChooseOperationStaging |

On the as-written side:

- `AppComponent.ChooseOperation` and `CalculatorState.ChooseOperation` follow the code as written.
- `Scenarios.ChainedExpression` replays the key sequence on the class.

On the corrected side:

- `CalculatorState.ChooseOperationStaging` is the corrected transition.
- `CalculatorState.StagingKeepsOperand` proves the invariant for it.
- `CalculatorState.ChainedUsesResult` proves that the folded result becomes the next left operand.
- `Scenarios.ChainedExpressionStaged` shows `30` for the same keys.

=== FILE: Calculator.dfy ===
/**
 * `AppComponent` (src/app/app.component.ts:175-274): the four fields and the
 * five methods that assign them in place, with the early returns of the
 * source. Each method is proved to perform the transition of the same name
 * in CalculatorState on the fields it holds, and to keep the display valid
 * (never empty, at most one point in either operand) when fed keypad tokens.
 */
module Calculator {
  import opened JsNumber
  import opened FloatParser
  import opened NumberFormat
  import opened CalculatorState

  class AppComponent {
    var currentOperand: string
    var previousOperand: string
    var operation: Option<string>
    var waitingForOperand: bool

    /** The four fields as a value. */
    function Snapshot(): State
      reads this
    {
      State(currentOperand, previousOperand, operation, waitingForOperand)
    }

    constructor()
      ensures Snapshot() == Initial
    {
      currentOperand := "0";
      previousOperand := "";
      operation := None;
      waitingForOperand := false;
    }

    method Clear()
      modifies this
      ensures Snapshot() == Initial
      ensures Valid(Snapshot())
    {
      currentOperand := "0";
      previousOperand := "";
      operation := None;
      waitingForOperand := false;
      InitialValid();
    }

    method Delete()
      modifies this
      ensures Snapshot() == CalculatorState.Delete(old(Snapshot()))
      ensures old(Valid(Snapshot())) ==> Valid(Snapshot())
    {
      ghost var before := Snapshot();
      if |currentOperand| > 1 {
        currentOperand := currentOperand[..|currentOperand| - 1];
      } else {
        currentOperand := "0";
      }
      if Valid(before) {
        DeleteValid(before);
      }
    }

    method AppendNumber(number: string)
      modifies this
      ensures Snapshot() == CalculatorState.AppendNumber(old(Snapshot()), number)
      ensures old(Valid(Snapshot())) && IsKey(number) ==> Valid(Snapshot())
    {
      ghost var before := Snapshot();
      if Valid(before) && IsKey(number) {
        AppendNumberValid(before, number);
      }
      if waitingForOperand {
        currentOperand := number;
        waitingForOperand := false;
      } else {
        if number == "." && '.' in currentOperand {
          return;
        }
        currentOperand := if currentOperand == "0" && number != "." then number else currentOperand + number;
      }
    }

    method ChooseOperation(nextOperation: string)
      modifies this
      ensures Snapshot() == CalculatorState.ChooseOperation(old(Snapshot()), nextOperation)
      ensures old(Valid(Snapshot())) ==> Valid(Snapshot())
    {
      ghost var before := Snapshot();
      if previousOperand == "" {
        previousOperand := currentOperand;
      } else if !waitingForOperand {
        Compute();
      }
      operation := Some(nextOperation);
      waitingForOperand := true;
      if Valid(before) {
        ChooseOperationValid(before, nextOperation);
      }
    }

    method Compute()
      modifies this
      ensures Snapshot() == CalculatorState.Compute(old(Snapshot()))
      ensures old(Valid(Snapshot())) ==> Valid(Snapshot())
    {
      ghost var before := Snapshot();
      if Valid(before) {
        ComputeValid(before);
      }
      var result: Num;
      var prev := ParseFloat(previousOperand);
      var current := ParseFloat(currentOperand);

      if prev.NaN? || current.NaN? {
        return;
      }

      if operation == Some("+") {
        result := Add(prev, current);
      } else if operation == Some("-") {
        result := Sub(prev, current);
      } else if operation == Some("*") {
        result := Mul(prev, current);
      } else if operation == Some("/") {
        if current == Finite(0.0) {
          currentOperand := "Error";
          previousOperand := "";
          operation := None;
          waitingForOperand := true;
          return;
        }
        result := Div(prev, current);
      } else {
        return;
      }

      currentOperand := FormatNumber(result);
      previousOperand := "";
      operation := None;
      waitingForOperand := true;
    }
  }
}

=== FILE: CalculatorState.dfy ===
/**
 * The calculator's state machine as values: the four fields of `AppComponent`
 * (src/app/app.component.ts:176-179) and one transition per method
 * (src/app/app.component.ts:181-258). The class in Calculator performs the
 * same transitions in place; these functions are what its methods are proved
 * against, and what the properties below are stated about.
 */
module CalculatorState {
  import opened Decimal
  import opened JsNumber
  import opened FloatParser
  import opened ScientificNotation
  import opened NumberFormat
  import opened FormatRoundTrip

  datatype Option<T> = None | Some(value: T)

  /**
   * `currentOperand`, `previousOperand`, `operation` (a string or null) and
   * `waitingForOperand`.
   */
  datatype State = State(current: string, previous: string, operation: Option<string>, waiting: bool)

  /** The state a new component starts in, and the state `clear` restores. */
  const Initial := State("0", "", None, false)

  /** The tokens the keypad sends to `appendNumber`: one digit or the point. */
  predicate IsKey(t: string)
  {
    |t| == 1 && (IsDigit(t[0]) || t[0] == '.')
  }

  /** The operator symbols `compute` knows. */
  predicate IsOperator(op: string)
  {
    op == "+" || op == "-" || op == "*" || op == "/"
  }

  /** `delete`: drop the last character, or show `0` when at most one is left. */
  function Delete(st: State): (r: State)
    ensures r.previous == st.previous && r.operation == st.operation && r.waiting == st.waiting
    ensures r.current != []
    ensures |st.current| > 1 ==> r.current + [st.current[|st.current| - 1]] == st.current
    ensures |st.current| <= 1 ==> r.current == "0"
  {
    if |st.current| > 1 then st.(current := st.current[..|st.current| - 1])
    else st.(current := "0")
  }

  /**
   * `appendNumber`: after an operator or a result the token replaces the
   * display; otherwise a second point is ignored, a digit replaces a lone
   * `0`, and anything else is appended.
   */
  function AppendNumber(st: State, t: string): (r: State)
    ensures r.previous == st.previous && r.operation == st.operation && !r.waiting
    ensures st.waiting ==> r.current == t
  {
    if st.waiting then st.(current := t, waiting := false)
    else if t == "." && '.' in st.current then st
    else st.(current := if st.current == "0" && t != "." then t else st.current + t)
  }

  /** What `compute` decides, before it writes any field. */
  datatype Outcome = NoChange | DivisionByZero | Result(value: Num)

  /**
   * The `switch` of `compute` on operands already read by `parseFloat`:
   * nothing when one of them is NaN or the operator is unknown, the error
   * for a division by zero, and otherwise the value of the operation.
   */
  function Evaluate(prev: Num, cur: Num, operation: Option<string>): (o: Outcome)
    ensures o == NoChange <==> prev.NaN? || cur.NaN? || !(operation.Some? && IsOperator(operation.value))
    ensures o == DivisionByZero <==> !prev.NaN? && operation == Some("/") && cur == Finite(0.0)
  {
    if prev.NaN? || cur.NaN? then NoChange
    else if operation == Some("+") then Result(Add(prev, cur))
    else if operation == Some("-") then Result(Sub(prev, cur))
    else if operation == Some("*") then Result(Mul(prev, cur))
    else if operation == Some("/") then
      if cur == Finite(0.0) then DivisionByZero else Result(Div(prev, cur))
    else NoChange
  }

  /** The outcome `compute` reaches from a state. */
  function OutcomeOf(st: State): Outcome
  {
    Evaluate(ParseFloat(st.previous), ParseFloat(st.current), st.operation)
  }

  /**
   * `compute`: either nothing changes, or the display shows the result (or
   * `Error`), the staged operand and the operator are cleared and the next
   * key starts a new operand.
   */
  function Compute(st: State): (r: State)
    ensures r == st || (r.previous == "" && r.operation == None && r.waiting)
  {
    match OutcomeOf(st)
    case NoChange => st
    case DivisionByZero => State("Error", "", None, true)
    case Result(n) => State(FormatNumber(n), "", None, true)
  }

  /**
   * `chooseOperation`: stage the display as the left operand when none is
   * staged, or fold the pending operation first when an operand has been
   * typed since; then record the operator and wait for the next operand.
   */
  function ChooseOperation(st: State, op: string): (r: State)
    ensures r.operation == Some(op) && r.waiting
    ensures st.previous == "" ==> r.previous == st.current && r.current == st.current
    ensures st.previous != "" && st.waiting ==> r == st.(operation := Some(op))
  {
    var folded :=
      if st.previous == "" then st.(previous := st.current)
      else if !st.waiting then Compute(st)
      else st;
    folded.(operation := Some(op), waiting := true)
  }

  /** The display is never empty and neither operand holds two points. */
  predicate Valid(st: State)
  {
    st.current != [] && PointCount(st.current) <= 1 && PointCount(st.previous) <= 1
  }

  lemma InitialValid()
    ensures Valid(Initial)
  {
    DigitsHaveNoPoint("0");
    DigitsHaveNoPoint("");
  }

  lemma DeleteValid(st: State)
    requires Valid(st)
    ensures Valid(Delete(st))
  {
    var r := Delete(st);
    if |st.current| > 1 {
      assert multiset(st.current) == multiset(r.current) + multiset([st.current[|st.current| - 1]]);
    } else {
      DigitsHaveNoPoint("0");
    }
  }

  /** Typing a keypad token keeps at most one point on the display. */
  lemma AppendNumberValid(st: State, t: string)
    requires Valid(st) && IsKey(t)
    ensures Valid(AppendNumber(st, t))
  {
    var r := AppendNumber(st, t);
    if st.waiting || (st.current == "0" && t != ".") {
      assert r.current == t;
      assert PointCount(t) <= 1 by {
        assert t == [t[0]];
      }
    } else if r != st {
      assert r.current == st.current + t;
      assert multiset(r.current) == multiset(st.current) + multiset(t);
      assert t == [t[0]];
      if t[0] == '.' {
        assert '.' !in st.current;
      }
    }
  }

  lemma ComputeValid(st: State)
    requires Valid(st)
    ensures Valid(Compute(st))
  {
    match OutcomeOf(st)
    case NoChange =>
    case DivisionByZero =>
      FormatNumberShape(NaN);
      DigitsHaveNoPoint("");
    case Result(n) =>
      FormatNumberShape(n);
      DigitsHaveNoPoint("");
  }

  lemma ChooseOperationValid(st: State, op: string)
    requires Valid(st)
    ensures Valid(ChooseOperation(st, op))
  {
    if st.previous != "" && !st.waiting {
      ComputeValid(st);
    }
  }

  /** A delete takes back the token the previous append added to the display. */
  lemma DeleteUndoesAppend(st: State, t: string)
    requires st.current != [] && !st.waiting && IsKey(t)
    requires !(t == "." && '.' in st.current) && !(st.current == "0" && t != ".")
    ensures Delete(AppendNumber(st, t)) == st
  {
    var s := st.current + t;
    assert s[..|s| - 1] == st.current;
  }

  /** `delete` applied k times. */
  function DeleteTimes(st: State, k: nat): State
  {
    if k == 0 then st else Delete(DeleteTimes(st, k - 1))
  }

  /**
   * k deletes drop the last k characters; once none but one would be left
   * the display shows `0`.
   */
  lemma {:induction false} DeleteTimesDrops(st: State, k: nat)
    requires st.current != []
    ensures DeleteTimes(st, k).current == if k < |st.current| then st.current[..|st.current| - k] else "0"
    ensures DeleteTimes(st, k).(current := st.current) == st
  {
    if k > 0 {
      DeleteTimesDrops(st, k - 1);
      var c, p := st.current, DeleteTimes(st, k - 1);
      assert DeleteTimes(st, k) == Delete(p);
      if k < |c| {
        assert p.current == c[..|c| - (k - 1)] && |p.current| > 1;
        assert p.current[..|p.current| - 1] == c[..|c| - k];
      } else {
        assert |p.current| <= 1;
      }
    }
  }

  /**
   * compute either leaves the state alone (an operand NaN or the operator
   * unknown) or resets it; a result is shown as formatNumber prints it, and
   * the display shows `Error` exactly after a division by zero or a result
   * that is not finite.
   */
  lemma ComputeOutcome(st: State)
    ensures OutcomeOf(st) == NoChange ==> Compute(st) == st
    ensures OutcomeOf(st) != NoChange ==>
      Compute(st).previous == "" && Compute(st).operation == None && Compute(st).waiting
    ensures OutcomeOf(st).DivisionByZero? ==> Compute(st).current == "Error"
    ensures OutcomeOf(st).Result? ==> Compute(st).current == FormatNumber(OutcomeOf(st).value)
    ensures OutcomeOf(st).Result? ==>
      (Compute(st).current == "Error" <==> !OutcomeOf(st).value.Finite?)
  {
    if OutcomeOf(st).Result? {
      FormatNumberError(OutcomeOf(st).value);
    }
  }

  /** A second compute right after the first changes nothing. */
  lemma ComputeIdempotent(st: State)
    ensures Compute(Compute(st)) == Compute(st)
  {
    var r := Compute(st);
    if r != st {
      ParseFloatEmpty();
      assert OutcomeOf(r) == NoChange;
    }
  }

  /** After a division by zero the display shows `Error` and the next key starts afresh. */
  lemma DivisionByZeroRecovery(st: State, t: string)
    requires OutcomeOf(st) == DivisionByZero
    ensures Compute(st) == State("Error", "", None, true)
    ensures AppendNumber(Compute(st), t) == State(t, "", None, false)
  {
  }

  /**
   * A successful result in the fixed-point range is displayed so that
   * `parseFloat` reads it back as the result rounded to eight decimals: the
   * display is what the next operation computes with.
   */
  lemma ComputeReadsBack(st: State, x: real)
    requires OutcomeOf(st) == Result(Finite(x)) && !NeedsExponent(x)
    ensures ParseFloat(Compute(st).current) == Finite(RoundedToEight(x))
    ensures Abs(RoundedToEight(x) - x) <= 0.000000005
  {
    FormatFixedRoundTrip(x);
  }

  /** `Math.round(x * 1e8) / 1e8`, in exact arithmetic. */
  function RoundedToEight(x: real): real
  {
    MathRound(x * 100000000.0) as real / 100000000.0
  }

  /**
   * Chaining as written: choosing an operator after a second operand folds
   * the pending operation onto the display, but the fold also empties
   * `previousOperand`, so the new operator has no left operand staged.
   */
  lemma ChainingClearsStaged(st: State, op: string)
    requires st.previous != "" && !st.waiting && OutcomeOf(st) != NoChange
    ensures var r := ChooseOperation(st, op);
      r.current == Compute(st).current && r.previous == "" && r.operation == Some(op) && r.waiting
  {
  }

  /** So whatever is typed next, a compute after a chained operator changes nothing. */
  lemma ComputeAfterChaining(st: State, op: string, t: string)
    requires st.previous != "" && !st.waiting && OutcomeOf(st) != NoChange
    ensures var s := AppendNumber(ChooseOperation(st, op), t);
      s.current == t && Compute(s) == s
  {
    ParseFloatEmpty();
  }

  /**
   * An operator is pending only while a left operand is staged (the
   * staging invariant that conventional chaining keeps).
   */
  predicate OperandStaged(st: State)
  {
    st.operation.Some? ==> st.previous != ""
  }

  /** Chaining as written breaks that invariant: 10 + 5, then `*`. */
  lemma ChainingBreaksStaging()
    ensures OperandStaged(State("5", "10", Some("+"), false))
    ensures !OperandStaged(ChooseOperation(State("5", "10", Some("+"), false), "*"))
  {
    var st := State("5", "10", Some("+"), false);
    ParseInteger("10");
    ParseInteger("5");
    assert OutcomeOf(st) != NoChange;
  }

  /**
   * `chooseOperation` with conventional chaining: the folded result is
   * staged as the left operand of the new operator.
   */
  function ChooseOperationStaging(st: State, op: string): (r: State)
    ensures r.operation == Some(op) && r.waiting
    ensures st.previous == "" || st.waiting ==> r == ChooseOperation(st, op)
  {
    var folded := if st.previous != "" && !st.waiting then Compute(st) else st;
    var staged := if folded.previous == "" then folded.(previous := folded.current) else folded;
    staged.(operation := Some(op), waiting := true)
  }

  /** The corrected transition keeps an operand staged under every pending operator. */
  lemma StagingKeepsOperand(st: State, op: string)
    requires Valid(st)
    ensures OperandStaged(ChooseOperationStaging(st, op))
    ensures Valid(ChooseOperationStaging(st, op))
  {
    var folded := if st.previous != "" && !st.waiting then Compute(st) else st;
    ComputeValid(st);
    assert Valid(folded);
  }

  /**
   * With the corrected transition a chained operator takes the folded
   * result as its left operand: the next compute evaluates result op t.
   */
  lemma ChainedUsesResult(st: State, op: string, t: string, n: Num)
    requires st.previous != "" && !st.waiting && OutcomeOf(st) == Result(n)
    ensures var s := AppendNumber(ChooseOperationStaging(st, op), t);
      s == State(t, FormatNumber(n), Some(op), false)
      && OutcomeOf(s) == Evaluate(ParseFloat(FormatNumber(n)), ParseFloat(t), Some(op))
  {
    FormatNumberShape(n);
  }

  /** The other transitions keep an operand staged under a pending operator. */
  lemma OperandStagedPreserved(st: State, t: string)
    requires OperandStaged(st)
    ensures OperandStaged(Delete(st))
    ensures OperandStaged(AppendNumber(st, t))
    ensures OperandStaged(Compute(st))
  {
  }
}

=== FILE: Decimal.dfy ===
/**
 * Decimal digit strings and powers of ten: the vocabulary shared by the
 * model of `parseFloat` and the model of the component's number formatting.
 */
module Decimal {

  predicate IsDigit(c: char)
  {
    '0' <= c <= '9'
  }

  function DigitValue(c: char): nat
    requires IsDigit(c)
  {
    c as int - '0' as int
  }

  function DigitChar(d: nat): (c: char)
    requires d < 10
    ensures IsDigit(c) && DigitValue(c) == d
  {
    ('0' as int + d) as char
  }

  predicate AllDigits(s: string)
  {
    forall i :: 0 <= i < |s| ==> IsDigit(s[i])
  }

  /** 10^n over the naturals. */
  function Pow10Nat(n: nat): (r: nat)
    ensures r >= 1
  {
    if n == 0 then 1 else 10 * Pow10Nat(n - 1)
  }

  lemma {:induction false} Pow10NatAdd(a: nat, b: nat)
    ensures Pow10Nat(a + b) == Pow10Nat(a) * Pow10Nat(b)
  {
    if b > 0 {
      Pow10NatAdd(a, b - 1);
      var x, y := Pow10Nat(a), Pow10Nat(b - 1);
      assert Pow10Nat(a + b) == 10 * (x * y);
      assert Pow10Nat(b) == 10 * y;
    }
  }

  /** 10^k over the reals, for any integer k. */
  function Pow10(k: int): (r: real)
    ensures r > 0.0
  {
    if k >= 0 then Pow10Nat(k) as real else 1.0 / (Pow10Nat(-k) as real)
  }

  lemma Pow10Succ(k: int)
    ensures Pow10(k + 1) == 10.0 * Pow10(k)
  {
    if k < -1 {
      var p := Pow10Nat(-k - 1) as real;
      assert Pow10Nat(-k) as real == 10.0 * p;
      assert Pow10(k + 1) == 1.0 / p;
      assert Pow10(k) == 1.0 / (10.0 * p);
    } else if k == -1 {
      assert Pow10(k) == 1.0 / 10.0;
    }
  }

  /** 10^k is strictly increasing in k. */
  lemma {:induction false} Pow10Monotone(a: int, b: int)
    requires a < b
    ensures Pow10(a) < Pow10(b)
    decreases b - a
  {
    Pow10Succ(a);
    if a + 1 < b {
      Pow10Monotone(a + 1, b);
    }
  }

  /**
   * n·10^e, built one power of ten at a time (so that reasoning about it
   * stays linear until ScaledIsProduct is asked for).
   */
  function Scaled(n: int, e: int): real
    decreases if e >= 0 then e else -e
  {
    if e == 0 then n as real
    else if e > 0 then 10.0 * Scaled(n, e - 1)
    else Scaled(n, e + 1) / 10.0
  }

  lemma TimesTen(x: real, p: real)
    ensures 10.0 * (x * p) == x * (10.0 * p)
  {
  }

  lemma {:induction false} ScaledIsProduct(n: int, e: int)
    ensures Scaled(n, e) == n as real * Pow10(e)
    decreases if e >= 0 then e else -e
  {
    if e > 0 {
      ScaledIsProduct(n, e - 1);
      Pow10Succ(e - 1);
      TimesTen(n as real, Pow10(e - 1));
    } else if e < 0 {
      ScaledIsProduct(n, e + 1);
      Pow10Succ(e);
      TimesTen(n as real, Pow10(e));
    } else {
      assert Pow10(0) == 1.0;
    }
  }

  /** Scaled is linear in its first argument. */
  lemma {:induction false} ScaledDifference(a: int, b: int, e: int)
    ensures Scaled(b, e) - Scaled(a, e) == Scaled(b - a, e)
    decreases if e >= 0 then e else -e
  {
    if e > 0 {
      ScaledDifference(a, b, e - 1);
    } else if e < 0 {
      ScaledDifference(a, b, e + 1);
    }
  }

  /** A positive multiple of 10^e is at least 10^e. */
  lemma {:induction false} ScaledAtLeastUnit(d: int, e: int)
    requires d >= 1
    ensures Scaled(d, e) >= Scaled(1, e) > 0.0
    decreases if e >= 0 then e else -e
  {
    if e > 0 {
      ScaledAtLeastUnit(d, e - 1);
    } else if e < 0 {
      ScaledAtLeastUnit(d, e + 1);
    }
  }

  /** A count that is not negative scales to a value that is not negative. */
  lemma {:induction false} ScaledNonNegative(n: int, e: int)
    requires n >= 0
    ensures Scaled(n, e) >= 0.0
    decreases if e >= 0 then e else -e
  {
    if e > 0 {
      ScaledNonNegative(n, e - 1);
    } else if e < 0 {
      ScaledNonNegative(n, e + 1);
    }
  }

  /** Moving one power of ten from the exponent into the count. */
  lemma ScaledShift(n: int, e: int)
    ensures Scaled(n, e + 1) == Scaled(10 * n, e)
  {
    var q := Pow10(e);
    ScaledIsProduct(n, e + 1);
    ScaledIsProduct(10 * n, e);
    Pow10Succ(e);
    TenTimes(n, q);
  }

  lemma TenTimes(n: int, q: real)
    ensures n as real * (10.0 * q) == (10 * n) as real * q
  {
  }

  /** The number a string of decimal digits denotes (the empty string denotes 0). */
  function DigitsValue(s: string): nat
    requires AllDigits(s)
  {
    if s == [] then 0 else DigitsValue(s[..|s| - 1]) * 10 + DigitValue(s[|s| - 1])
  }

  /** The value of a concatenation: the left part is shifted by the right part's length. */
  lemma {:induction false} DigitsValueAppend(a: string, b: string)
    requires AllDigits(a) && AllDigits(b)
    ensures AllDigits(a + b)
    ensures DigitsValue(a + b) == DigitsValue(a) * Pow10Nat(|b|) + DigitsValue(b)
  {
    if b == [] {
      assert a + b == a;
    } else {
      var b' := b[..|b| - 1];
      assert (a + b)[..|a + b| - 1] == a + b';
      DigitsValueAppend(a, b');
      ShiftDigit(DigitsValue(a), Pow10Nat(|b'|), DigitsValue(b'), DigitValue(b[|b| - 1]));
    }
  }

  lemma ShiftDigit(x: int, p: int, y: int, d: int)
    ensures (x * p + y) * 10 + d == x * (10 * p) + (y * 10 + d)
  {
  }

  /**
   * The decimal numeral of a natural number, as JavaScript prints it: no
   * leading zero except for 0 itself.
   */
  function NatToString(n: nat): (s: string)
    ensures |s| >= 1 && AllDigits(s)
    ensures s[0] == '0' <==> n == 0
  {
    if n < 10 then [DigitChar(n)] else NatToString(n / 10) + [DigitChar(n % 10)]
  }

  lemma {:induction false} NatToStringValue(n: nat)
    ensures DigitsValue(NatToString(n)) == n
  {
    if n >= 10 {
      var s := NatToString(n);
      assert s[..|s| - 1] == NatToString(n / 10);
      NatToStringValue(n / 10);
    }
  }

  /** A number below 10^k has at most k digits, and one at or above 10^(k-1) at least k. */
  lemma {:induction false} NatToStringLength(n: nat, k: nat)
    ensures n < Pow10Nat(k) ==> |NatToString(n)| <= k || (n == 0 && k == 0)
    ensures k >= 1 && Pow10Nat(k - 1) <= n ==> |NatToString(n)| >= k
  {
    if n >= 10 && k >= 1 {
      NatToStringLength(n / 10, k - 1);
    }
  }

  /** An integer with an explicit sign, `+` or `-`, then its digits. */
  function SignedNumeral(e: int): (s: string)
    ensures |s| >= 2 && (s[0] == '+' || s[0] == '-')
    ensures forall i :: 1 <= i < |s| ==> IsDigit(s[i])
  {
    if e < 0 then "-" + NatToString(-e) else "+" + NatToString(e)
  }

  function Zeros(k: nat): (s: string)
    ensures |s| == k && AllDigits(s)
  {
    if k == 0 then [] else Zeros(k - 1) + ['0']
  }

  /** A digit string padded on the left with '0' to at least the given width. */
  function PadLeft(s: string, width: nat): (r: string)
    requires AllDigits(s)
    ensures AllDigits(r)
    ensures |r| == if |s| < width then width else |s|
  {
    if |s| < width then Zeros(width - |s|) + s else s
  }

  lemma {:induction false} ZerosValue(k: nat)
    ensures DigitsValue(Zeros(k)) == 0
  {
    if k > 0 {
      assert Zeros(k)[..k - 1] == Zeros(k - 1);
      ZerosValue(k - 1);
    }
  }

  /** Padding does not change the value. */
  lemma PadLeftValue(s: string, width: nat)
    requires AllDigits(s)
    ensures DigitsValue(PadLeft(s, width)) == DigitsValue(s)
  {
    if |s| < width {
      var z := Zeros(width - |s|);
      DigitsValueAppend(z, s);
      ZerosValue(width - |s|);
      assert DigitsValue(z + s) == 0 * Pow10Nat(|s|) + DigitsValue(s);
    }
  }

  /** The string with its trailing '0' characters removed. */
  function StripTrailingZeros(s: string): (r: string)
    ensures |r| <= |s|
    ensures r == [] || r[|r| - 1] != '0'
  {
    if s != [] && s[|s| - 1] == '0' then StripTrailingZeros(s[..|s| - 1]) else s
  }

  /** Trailing zeros only scale the value: the stripped digits times 10^(removed) is the original. */
  lemma {:induction false} StripTrailingZerosValue(s: string)
    requires AllDigits(s)
    ensures AllDigits(StripTrailingZeros(s))
    ensures DigitsValue(StripTrailingZeros(s)) * Pow10Nat(|s| - |StripTrailingZeros(s)|) == DigitsValue(s)
  {
    if s != [] && s[|s| - 1] == '0' {
      var s' := s[..|s| - 1];
      StripTrailingZerosValue(s');
      var r := StripTrailingZeros(s');
      assert StripTrailingZeros(s) == r;
      var v, p := DigitsValue(r), Pow10Nat(|s'| - |r|);
      assert Pow10Nat(|s| - |r|) == 10 * p;
      assert DigitsValue(s) == DigitsValue(s') * 10;
      ShiftZero(v, p, DigitsValue(s'));
    }
  }

  lemma ShiftZero(v: int, p: int, w: int)
    requires v * p == w
    ensures v * (10 * p) == w * 10
  {
  }
}

=== FILE: FloatParser.dfy ===
/**
 * The global `parseFloat` of JavaScript, which the component applies to both
 * operands before computing (src/app/app.component.ts:223-224).
 *
 * `parseFloat` skips leading white space, then reads the longest prefix that
 * is a decimal literal: an optional sign, then either `Infinity` or digits
 * with an optional point, optional fraction digits and an optional exponent.
 * When no prefix qualifies the result is NaN. The value read is converted to
 * a double (see JsNumber for what of that conversion is modelled).
 */
module FloatParser {
  import opened Decimal
  import opened JsNumber

  /** The white space and line terminators that `parseFloat` skips. */
  predicate IsJsWhiteSpace(c: char)
  {
    c == '\t' || c == '\U{B}' || c == '\U{C}' || c == ' ' || c == '\U{A0}' || c == '\U{FEFF}'
    || c == '\U{1680}' || ('\U{2000}' <= c <= '\U{200A}') || c == '\U{202F}' || c == '\U{205F}'
    || c == '\U{3000}' || c == '\n' || c == '\r' || c == '\U{2028}' || c == '\U{2029}'
  }

  /** s without its leading white space. */
  function TrimStart(s: string): (t: string)
    ensures |t| <= |s|
    ensures t == [] || !IsJsWhiteSpace(t[0])
  {
    if s != [] && IsJsWhiteSpace(s[0]) then TrimStart(s[1..]) else s
  }

  /** A string that starts with a digit or a sign has no white space to skip. */
  lemma TrimStartNoSpace(s: string)
    requires s != [] && (IsDigit(s[0]) || s[0] == '-' || s[0] == '+' || s[0] == '.')
    ensures TrimStart(s) == s
  {
    assert !IsJsWhiteSpace(s[0]);
  }

  /** The longest prefix of s made of decimal digits. */
  function LeadingDigits(s: string): (d: string)
    ensures AllDigits(d) && |d| <= |s| && d == s[..|d|]
    ensures |d| == |s| || !IsDigit(s[|d|])
  {
    if s != [] && IsDigit(s[0]) then [s[0]] + LeadingDigits(s[1..]) else []
  }

  /**
   * The exponent an optional ExponentPart at the start of s denotes: `e` or
   * `E`, an optional sign, then at least one digit. Without one it is 0.
   */
  function ExponentOf(s: string): int
  {
    if |s| >= 2 && (s[0] == 'e' || s[0] == 'E') then
      var signed := s[1] == '+' || s[1] == '-';
      var digits := LeadingDigits(if signed then s[2..] else s[1..]);
      if digits == [] then 0
      else if s[1] == '-' then -(DigitsValue(digits) as int)
      else DigitsValue(digits)
    else 0
  }

  /** What `parseFloat` reads from an unsigned string: the longest literal prefix, if any. */
  datatype Literal =
    | InfinityLiteral
    | DecimalLiteral(digits: string, exponent: int)  // the value digits·10^exponent
    | NoLiteral

  predicate StartsWithInfinity(u: string)
  {
    |u| >= 8 && u[0] == 'I' && u[1] == 'n' && u[2] == 'f' && u[3] == 'i'
    && u[4] == 'n' && u[5] == 'i' && u[6] == 't' && u[7] == 'y'
  }

  /**
   * The longest prefix of u that is an unsigned decimal literal: `Infinity`,
   * or digits, an optional point with optional digits (at least one digit in
   * all), and an optional exponent. The fraction digits join the digits and
   * lower the exponent by their number.
   */
  function ScanUnsigned(u: string): (lit: Literal)
    ensures lit.DecimalLiteral? ==> AllDigits(lit.digits) && lit.digits != []
  {
    if StartsWithInfinity(u) then InfinityLiteral
    else
      var intDigits := LeadingDigits(u);
      var rest := u[|intDigits|..];
      if rest != [] && rest[0] == '.' then
        var fracDigits := LeadingDigits(rest[1..]);
        if intDigits == [] && fracDigits == [] then NoLiteral
        else DecimalLiteral(intDigits + fracDigits, ExponentOf(rest[1 + |fracDigits|..]) - |fracDigits|)
      else if intDigits == [] then NoLiteral
      else DecimalLiteral(intDigits, ExponentOf(rest))
  }

  /** The double for digits·10^exponent. */
  function ScaledValue(digits: string, exponent: int): (v: Num)
    requires AllDigits(digits)
    ensures v != NegInf && (v.Finite? ==> v.value >= 0.0)
  {
    ScaledNonNegative(DigitsValue(digits), exponent);
    ToDouble(Scaled(DigitsValue(digits), exponent))
  }

  /** ScaledValue in terms of the value the digits and exponent denote. */
  lemma ScaledValueOf(digits: string, exponent: int, r: real)
    requires AllDigits(digits) && Scaled(DigitsValue(digits), exponent) == r
    ensures ScaledValue(digits, exponent) == ToDouble(r)
  {
  }

  function LiteralValue(lit: Literal): Num
    requires lit.DecimalLiteral? ==> AllDigits(lit.digits)
  {
    match lit
    case InfinityLiteral => PosInf
    case DecimalLiteral(digits, exponent) => ScaledValue(digits, exponent)
    case NoLiteral => NaN
  }

  /** What is left once the white space and one sign are skipped. */
  function Unsigned(s: string): string
  {
    var t := TrimStart(s);
    if t != [] && (t[0] == '-' || t[0] == '+') then t[1..] else t
  }

  /** Whether the first character after the white space is a minus sign. */
  predicate IsNegative(s: string)
  {
    var t := TrimStart(s);
    t != [] && t[0] == '-'
  }

  /**
   * `parseFloat`: the longest literal after the white space and one sign.
   * A negative result, finite or infinite, comes only from a minus sign.
   */
  function ParseFloat(s: string): (n: Num)
    ensures n == NegInf || (n.Finite? && n.value < 0.0) ==> IsNegative(s)
    ensures n == PosInf ==> !IsNegative(s)
  {
    var v := LiteralValue(ScanUnsigned(Unsigned(s)));
    if IsNegative(s) then Neg(v) else v
  }

  /** Whether an unsigned literal can start here: `Infinity`, a digit, or a point and a digit. */
  predicate StartsLiteral(u: string)
  {
    StartsWithInfinity(u) || (u != [] && IsDigit(u[0]))
    || (|u| >= 2 && u[0] == '.' && IsDigit(u[1]))
  }

  /** A literal is found exactly when one starts at the front. */
  lemma ScanFinds(u: string)
    ensures ScanUnsigned(u).NoLiteral? <==> !StartsLiteral(u)
  {
    if !StartsWithInfinity(u) && u != [] && !IsDigit(u[0]) {
      assert LeadingDigits(u) == [];
      assert u[|LeadingDigits(u)|..] == u;
    }
  }

  /** `parseFloat` gives NaN exactly when no literal starts after the white space and sign. */
  lemma ParseFloatNaN(s: string)
    ensures ParseFloat(s).NaN? <==> !StartsLiteral(Unsigned(s))
  {
    ScanFinds(Unsigned(s));
  }

  /** A string that starts with a letter other than `I` is not a number. */
  lemma ParseFloatLetter(s: string)
    requires s != [] && ('A' <= s[0] <= 'Z' || 'a' <= s[0] <= 'z') && s[0] != 'I'
    ensures ParseFloat(s).NaN?
  {
    UnsignedLetter(s);
    ParseFloatNaN(s);
  }

  lemma UnsignedLetter(s: string)
    requires s != [] && ('A' <= s[0] <= 'Z' || 'a' <= s[0] <= 'z')
    ensures Unsigned(s) == s
  {
    assert !IsJsWhiteSpace(s[0]);
  }

  lemma UnsignedPoint()
    ensures Unsigned(".") == "."
  {
    TrimStartNoSpace(".");
  }

  lemma UnsignedMinus()
    ensures Unsigned("-") == ""
  {
    TrimStartNoSpace("-");
    assert "-"[1..] == "";
  }

  lemma ParseFloatEmpty()
    ensures ParseFloat("").NaN?
  {
    ParseFloatNaN("");
  }

  lemma ParseFloatPoint()
    ensures ParseFloat(".").NaN?
  {
    UnsignedPoint();
    ParseFloatNaN(".");
  }

  lemma ParseFloatMinus()
    ensures ParseFloat("-").NaN?
  {
    UnsignedMinus();
    ParseFloatNaN("-");
  }

  /** The operand strings the component must reject parse to NaN. */
  lemma ParseFloatRejects()
    ensures ParseFloat("").NaN?
    ensures ParseFloat(".").NaN?
    ensures ParseFloat("-").NaN?
    ensures ParseFloat("Error").NaN?
  {
    ParseFloatEmpty();
    ParseFloatPoint();
    ParseFloatMinus();
    ParseFloatLetter("Error");
  }

  lemma {:induction false} LeadingDigitsPrefix(d: string, rest: string)
    requires AllDigits(d)
    requires rest == [] || !IsDigit(rest[0])
    ensures LeadingDigits(d + rest) == d
  {
    if d != [] {
      assert (d + rest)[1..] == d[1..] + rest;
      LeadingDigitsPrefix(d[1..], rest);
    } else {
      assert d + rest == rest;
    }
  }

  /** A string that starts with a digit is read as it stands. */
  lemma ParseDigitFirst(s: string)
    requires s != [] && IsDigit(s[0])
    ensures ParseFloat(s) == LiteralValue(ScanUnsigned(s))
  {
    TrimStartNoSpace(s);
  }

  /** A leading minus sign negates what follows it, when a digit follows. */
  lemma ParseNegated(s: string)
    requires s != [] && IsDigit(s[0])
    ensures ParseFloat("-" + s) == Neg(ParseFloat(s))
  {
    TrimStartNoSpace("-" + s);
    assert ("-" + s)[1..] == s;
    ParseDigitFirst(s);
  }

  /** A non-empty digit string, with nothing after it that could extend the literal. */
  lemma ScanInteger(d: string)
    requires d != [] && AllDigits(d)
    ensures ScanUnsigned(d) == DecimalLiteral(d, 0)
  {
    LeadingDigitsPrefix(d, []);
    assert d + [] == d;
    assert d[|d|..] == [];
  }

  lemma ParseInteger(d: string)
    requires d != [] && AllDigits(d)
    ensures ParseFloat(d) == ScaledValue(d, 0)
  {
    ParseDigitFirst(d);
    ScanInteger(d);
  }

  /**
   * How ScanUnsigned reads a string whose leading digits w are followed by a
   * point, fraction digits f and a tail that does not continue them.
   */
  lemma ScanPointedParts(s: string, w: string, rest: string, f: string, tail: string)
    requires w != [] && !StartsWithInfinity(s)
    requires LeadingDigits(s) == w && s[|w|..] == rest
    requires rest != [] && rest[0] == '.' && 1 + |f| <= |rest|
    requires LeadingDigits(rest[1..]) == f && rest[1 + |f|..] == tail
    ensures ScanUnsigned(s) == DecimalLiteral(w + f, ExponentOf(tail) - |f|)
  {
  }

  /** Digits, a point, fraction digits and a tail: the fraction digits lower the exponent. */
  lemma ScanPointed(w: string, f: string, tail: string)
    requires w != [] && AllDigits(w) && AllDigits(f)
    requires tail == [] || !IsDigit(tail[0])
    ensures ScanUnsigned(w + "." + f + tail) == DecimalLiteral(w + f, ExponentOf(tail) - |f|)
  {
    var s, rest := w + "." + f + tail, "." + f + tail;
    PointedSplit(s, w, rest, f, tail);
    LeadingDigitsPrefix(w, rest);
    LeadingDigitsPrefix(f, tail);
    ScanPointedParts(s, w, rest, f, tail);
  }

  lemma PointedSplit(s: string, w: string, rest: string, f: string, tail: string)
    requires w != [] && AllDigits(w)
    requires s == w + "." + f + tail && rest == "." + f + tail
    ensures s == w + rest && s[|w|..] == rest && !StartsWithInfinity(s)
    ensures rest[1..] == f + tail && rest[1 + |f|..] == tail
  {
    assert s[0] == w[0];
  }

  /** Digits, a point and fraction digits. */
  lemma ScanFixedPoint(w: string, f: string)
    requires w != [] && AllDigits(w) && f != [] && AllDigits(f)
    ensures ScanUnsigned(w + "." + f) == DecimalLiteral(w + f, -|f|)
  {
    ScanPointed(w, f, []);
    assert w + "." + f + [] == w + "." + f;
  }

  lemma ParseFixedPoint(w: string, f: string)
    requires w != [] && AllDigits(w) && f != [] && AllDigits(f)
    ensures ParseFloat(w + "." + f) == ScaledValue(w + f, -|f|)
  {
    ParseDigitFirst(w + "." + f);
    ScanFixedPoint(w, f);
  }

  /** An exponent part: `e`, a sign and digits. */
  lemma ExponentPart(e: int)
    ensures ExponentOf("e" + SignedNumeral(e)) == e
  {
    var k := if e < 0 then -e else e;
    var ks := NatToString(k);
    var tail := "e" + SignedNumeral(e);
    assert tail[2..] == ks;
    LeadingDigitsPrefix(ks, []);
    assert ks + [] == ks;
    NatToStringValue(k);
    assert LeadingDigits(tail[2..]) == ks && DigitsValue(ks) == k;
    if e < 0 {
      assert tail[1] == '-';
    } else {
      assert tail[1] == '+';
    }
  }

  /** A string that starts with a digit and scans as digits·10^exponent has that value. */
  lemma ParseDecimalLiteral(s: string, digits: string, exponent: int)
    requires s != [] && IsDigit(s[0]) && AllDigits(digits)
    requires ScanUnsigned(s) == DecimalLiteral(digits, exponent)
    ensures ParseFloat(s) == ScaledValue(digits, exponent)
  {
    ParseDigitFirst(s);
  }

  /** The toExponential shape scans as its digits, the exponent lowered by the fraction length. */
  lemma ScanExponentialText(d: char, f: string, e: int, s: string, g: string, x: int)
    requires IsDigit(d) && AllDigits(f)
    requires s == [d] + "." + f + ("e" + SignedNumeral(e)) && g == [d] + f && x == e - |f|
    ensures ScanUnsigned(s) == DecimalLiteral(g, x)
  {
    ExponentPart(e);
    ScanPointed([d], f, "e" + SignedNumeral(e));
  }

  /**
   * The shape toExponential produces, `d.fffe±k`, reads as the digits d f
   * with the exponent lowered by the number of fraction digits.
   */
  lemma ParseExponentialText(d: char, f: string, e: int, s: string, g: string, x: int)
    requires IsDigit(d) && AllDigits(f)
    requires s == [d] + "." + f + ("e" + SignedNumeral(e)) && g == [d] + f && x == e - |f|
    ensures AllDigits(g)
    ensures ParseFloat(s) == ScaledValue(g, x)
  {
    ScanExponentialText(d, f, e, s, g, x);
    assert s != [] && IsDigit(s[0]);
    ParseDecimalLiteral(s, g, x);
  }
}

=== FILE: FormatRoundTrip.dfy ===
/**
 * What the display text reads back as: parseFloat of formatNumber's output.
 * In the fixed range it is the value rounded to eight decimals; in the
 * exponential range it is the seven-significant-digit value toExponential(6)
 * chose. The calculator relies on this whenever a result is used as the left
 * operand of the next operation.
 */
module FormatRoundTrip {
  import opened Decimal
  import opened JsNumber
  import opened FloatParser
  import opened ScientificNotation
  import opened NumberFormat

  lemma NegToDouble(r: real)
    ensures Neg(ToDouble(r)) == ToDouble(-r)
  {
  }

  lemma FractionCancel(v: nat, k: nat, r: nat, m: nat)
    requires k >= 1 && r >= 1 && m == v * r
    ensures v as real * (1.0 / k as real) == m as real / (k * r) as real
  {
    var V, K, R := v as real, k as real, r as real;
    assert (k * r) as real == K * R;
    assert m as real == V * R;
    assert V * R / (K * R) == V / K;
  }

  /** v at L decimal places, with v·10^(8-L) = m, is m/10^8. */
  lemma FixedReal(v: nat, L: nat, m: nat)
    requires 1 <= L <= 8 && v * Pow10Nat(8 - L) == m
    ensures Scaled(v, -(L as int)) == m as real / 100000000.0
  {
    ScaledIsProduct(v, -(L as int));
    Pow10NatAdd(L, 8 - L);
    assert Pow10Nat(8) == 100000000;
    FractionCancel(v, Pow10Nat(L), Pow10Nat(8 - L), m);
  }

  /** A whole number of units reads back as itself. */
  lemma WholeFixedValue(m: nat)
    requires m % 100000000 == 0
    ensures ParseFloat(UnsignedFixedString(m)) == ToDouble(m as real / 100000000.0)
  {
    var whole := m / 100000000;
    var w := NatToString(whole);
    var r := m as real / 100000000.0;
    WholeUnits(m, whole);
    NatToStringValue(whole);
    assert Scaled(DigitsValue(w), 0) == r;
    ScaledValueOf(w, 0, r);
    ParseInteger(w);
    WholeFixedText(m);
  }

  lemma WholeUnits(m: nat, whole: nat)
    requires m % 100000000 == 0 && whole == m / 100000000
    ensures m as real / 100000000.0 == whole as real
  {
    assert m == whole * 100000000;
    assert m as real == whole as real * 100000000.0;
  }

  lemma WholeFixedText(m: nat)
    requires m % 100000000 == 0
    ensures UnsignedFixedString(m) == NatToString(m / 100000000)
  {
    assert NatToString(m / 100000000) + "" == NatToString(m / 100000000);
  }

  /** The fraction digits, zeros on the right removed, denote the fraction in at most eight places. */
  lemma FractionDigits(frac: nat)
    requires 0 < frac < 100000000
    ensures var f := StripTrailingZeros(PadLeft(NatToString(frac), 8));
      AllDigits(f) && 1 <= |f| <= 8 && DigitsValue(f) * Pow10Nat(8 - |f|) == frac
  {
    var padded := PadLeft(NatToString(frac), 8);
    NatToStringValue(frac);
    PadLeftValue(NatToString(frac), 8);
    StripTrailingZerosValue(padded);
    assert Pow10Nat(8) == 100000000;
    NatToStringLength(frac, 8);
  }

  lemma UnitSplit(m: nat)
    ensures m == (m / 100000000) * 100000000 + m % 100000000
  {
  }

  lemma ShiftParts(whole: nat, d: nat, k: nat, r: nat, frac: nat)
    requires d * r == frac
    ensures (whole * k + d) * r == whole * (k * r) + frac
  {
  }

  /** Shifting whole·10^L + d back by 8 - L places gives whole·10^8 + frac. */
  lemma FixedNat(whole: nat, d: nat, L: nat, frac: nat, m: nat, v: nat)
    requires 1 <= L <= 8 && d * Pow10Nat(8 - L) == frac && m == whole * 100000000 + frac
    requires v == whole * Pow10Nat(L) + d
    ensures v * Pow10Nat(8 - L) == m
  {
    var k, r := Pow10Nat(L), Pow10Nat(8 - L);
    Pow10NatAdd(L, 8 - L);
    assert Pow10Nat(8) == 100000000;
    ShiftParts(whole, d, k, r, frac);
  }

  /** The digits of m/10^8, whole part then fraction, shifted back by 8 - |f| places, make m. */
  lemma FixedDigitsNat(m: nat, w: string, f: string, g: string)
    requires m % 100000000 != 0
    requires w == NatToString(m / 100000000) && f == FractionText(m) && g == w + f
    ensures AllDigits(f) && 1 <= |f| <= 8 && AllDigits(g)
    ensures DigitsValue(g) * Pow10Nat(8 - |f|) == m
  {
    var whole, frac := m / 100000000, m % 100000000;
    NatToStringValue(whole);
    FractionDigits(frac);
    UnitSplit(m);
    DigitsValueAppend(w, f);
    var v, d, L := DigitsValue(g), DigitsValue(f), |f|;
    assert v == whole * Pow10Nat(L) + d;
    assert d * Pow10Nat(8 - L) == frac;
    FixedNat(whole, d, L, frac, m, v);
  }

  lemma FixedDigitsReal(m: nat, w: string, f: string, g: string)
    requires m % 100000000 != 0
    requires w == NatToString(m / 100000000) && f == FractionText(m) && g == w + f
    ensures AllDigits(f) && f != [] && AllDigits(g)
    ensures Scaled(DigitsValue(g), -|f|) == m as real / 100000000.0
  {
    FixedDigitsNat(m, w, f, g);
    var v := DigitsValue(g);
    FixedReal(v, |f|, m);
  }

  lemma FractionRead(m: nat, w: string, f: string, g: string)
    requires m % 100000000 != 0
    requires w == NatToString(m / 100000000) && f == FractionText(m) && g == w + f
    ensures ParseFloat(w + "." + f) == ToDouble(m as real / 100000000.0)
  {
    FixedDigitsReal(m, w, f, g);
    ParseFixedPoint(w, f);
    ScaledValueOf(g, -|f|, m as real / 100000000.0);
  }

  /** A number with a fraction reads back as itself. */
  lemma FractionFixedValue(m: nat)
    requires m % 100000000 != 0
    ensures ParseFloat(UnsignedFixedString(m)) == ToDouble(m as real / 100000000.0)
  {
    var w := NatToString(m / 100000000);
    var f := FractionText(m);
    FractionRead(m, w, f, w + f);
    FractionFixedText(m);
  }

  lemma FractionFixedText(m: nat)
    requires m % 100000000 != 0
    ensures UnsignedFixedString(m) == NatToString(m / 100000000) + "." + FractionText(m)
  {
    var w, f := NatToString(m / 100000000), FractionText(m);
    assert w + ("." + f) == w + "." + f;
  }

  /** The fixed notation reads back as m/10^8. */
  lemma UnsignedFixedValue(m: nat)
    ensures ParseFloat(UnsignedFixedString(m)) == ToDouble(m as real / 100000000.0)
  {
    if m % 100000000 == 0 {
      WholeFixedValue(m);
    } else {
      FractionFixedValue(m);
    }
  }

  /** The fixed notation of n/10^8 reads back as exactly n/10^8, within the display range. */
  lemma FixedRoundTrip(n: int)
    requires -100000000000000000000000000000 <= n <= 100000000000000000000000000000
    ensures ParseFloat(FixedString(n)) == Finite(n as real / 100000000.0)
  {
    FixedRead(n);
    ToDoubleExact(n as real / 100000000.0);
  }

  /** The fixed notation of n/10^8 reads back as the double nearest n/10^8. */
  lemma FixedRead(n: int)
    ensures ParseFloat(FixedString(n)) == ToDouble(n as real / 100000000.0)
  {
    var m := if n < 0 then -n else n;
    UnsignedFixedRead(m);
    SignedRead(n < 0, UnsignedFixedString(m), m as real / 100000000.0);
  }

  /** The fixed notation of m/10^8 starts with a digit and reads back as m/10^8. */
  lemma UnsignedFixedRead(m: nat)
    ensures var u := UnsignedFixedString(m);
      u != [] && IsDigit(u[0]) && ParseFloat(u) == ToDouble(m as real / 100000000.0)
  {
    UnsignedFixedValue(m);
    UnsignedFixedShape(m);
  }

  /** An optional minus sign before a literal that reads as v reads as v with that sign. */
  lemma SignedRead(neg: bool, u: string, v: real)
    requires u != [] && IsDigit(u[0]) && ParseFloat(u) == ToDouble(v)
    ensures ParseFloat(if neg then "-" + u else u) == ToDouble(if neg then -v else v)
  {
    if neg {
      NegatedRead(u, v);
    }
  }

  /**
   * In the fixed range the display reads back as the value rounded to eight
   * decimals, which is within half of 10^-8 of it.
   */
  lemma FormatFixedRoundTrip(x: real)
    requires !NeedsExponent(x)
    ensures ParseFloat(FormatNumber(Finite(x))) == Finite(MathRound(x * 100000000.0) as real / 100000000.0)
    ensures Abs(MathRound(x * 100000000.0) as real / 100000000.0 - x) <= 0.000000005
  {
    var n := MathRound(x * 100000000.0);
    FixedRoundTrip(n);
    FormatFixedText(x, n);
  }

  lemma ScaledScientific(digits: string, p: Scientific)
    requires AllDigits(digits) && DigitsValue(digits) == p.significand
    ensures ScaledValue(digits, p.exponent - 6) == ToDouble(ScientificValue(p))
  {
  }

  /** toExponential(6) of a positive value reads back as the significand it chose. */
  lemma UnsignedExponentialValue(x: real)
    requires x > 0.0
    ensures ParseFloat(UnsignedExponential(x)) == ToDouble(ScientificValue(Significand7(x)))
  {
    var p := Significand7(x);
    var d, f := DigitChar(p.significand / 1000000), SixDigits(p.significand % 1000000);
    var g := [d] + f;
    SignificandDigits(p.significand, d, f, g);
    ParseExponentialText(d, f, p.exponent, UnsignedExponential(x), g, p.exponent - 6);
    ScaledScientific(g, p);
  }

  /** The leading digit and the six digits after it spell the significand. */
  lemma SignificandDigits(n: nat, d: char, f: string, g: string)
    requires n < 10000000
    requires d == DigitChar(n / 1000000) && f == SixDigits(n % 1000000) && g == [d] + f
    ensures AllDigits(g) && DigitsValue(g) == n
  {
    assert [d][..0] == [];
    DigitsValueAppend([d], f);
    assert Pow10Nat(6) == 1000000;
  }

  /** A minus sign before a literal that reads as v reads as -v. */
  lemma NegatedRead(u: string, v: real)
    requires u != [] && IsDigit(u[0]) && ParseFloat(u) == ToDouble(v)
    ensures ParseFloat("-" + u) == ToDouble(-v)
  {
    ParseNegated(u);
    NegToDouble(v);
  }

  /** toExponential(6) of a non-zero value reads back as the signed significand it chose. */
  lemma ExponentialRoundTrip(x: real)
    requires x != 0.0
    ensures var v := ScientificValue(Significand7(Abs(x)));
      ParseFloat(ExponentialString(x)) == ToDouble(if x < 0.0 then -v else v)
  {
    if x < 0.0 {
      NegativeExponentialRoundTrip(x);
    } else {
      UnsignedExponentialValue(Abs(x));
    }
  }

  lemma NegativeExponentialRoundTrip(x: real)
    requires x < 0.0
    ensures ParseFloat(ExponentialString(x)) == ToDouble(-ScientificValue(Significand7(Abs(x))))
  {
    var y := Abs(x);
    UnsignedExponentialRead(y);
    NegativeExponentialText(x);
    NegatedRead(UnsignedExponential(y), ScientificValue(Significand7(y)));
  }

  lemma UnsignedExponentialRead(y: real)
    requires y > 0.0
    ensures var u := UnsignedExponential(y);
      u != [] && IsDigit(u[0]) && ParseFloat(u) == ToDouble(ScientificValue(Significand7(y)))
  {
    UnsignedExponentialValue(y);
    UnsignedExponentialShape(y);
  }

  lemma NegativeExponentialText(x: real)
    requires x < 0.0
    ensures ExponentialString(x) == "-" + UnsignedExponential(Abs(x))
  {
  }

  /**
   * In the exponential range the display reads back as seven significant
   * digits of the value, the nearest such number to it.
   */
  lemma FormatExponentialRoundTrip(x: real)
    requires NeedsExponent(x)
    ensures var p := Significand7(Abs(x));
      Nearest(Abs(x), p) && SevenDigitsOf(Abs(x), p)
      && ParseFloat(FormatNumber(Finite(x))) == ToDouble(if x < 0.0 then -ScientificValue(p) else ScientificValue(p))
  {
    ExponentialRoundTrip(x);
    FormatExponentialText(x);
  }
}

=== FILE: JsNumber.dfy ===
/**
 * JavaScript numbers as the calculator uses them.
 *
 * A value is a finite real, one of the two infinities, or NaN. Finite values
 * are kept exactly: the rounding of a result to a 53-bit significand is not
 * modelled, but the range of an IEEE-754 double is. A magnitude at or above
 * the overflow bound becomes an infinity and a magnitude at or below the
 * underflow bound becomes zero, as round-to-nearest-even does. Negative zero
 * is not distinguished from zero (the component only ever compares with 0
 * using `===`, for which the two are equal).
 */
module JsNumber {

  datatype Num = Finite(value: real) | PosInf | NegInf | NaN

  /** 2^1024 - 2^970: the smallest magnitude that rounds to an infinity. */
  const OverflowBound: real :=
    179769313486231580793728971405303415079934132710037826936173778980444968292764750946649017977587207096330286416692887910946555547851940402630657488671505820681908902000708383676273854845817711531764475730270069855571366959622842914819860834936475292719074168444365510704342711559699508093042880177904174497792.0

  /** 2^-1075: the largest magnitude that rounds to zero. */
  const UnderflowBound: real :=
    1.0 / 404804506614621236704990693437834614099113299528284236713802716054860679135990693783920767402874248990374155728633623822779617474771586953734026799881477019843034848553132722728933815484186432682479535356945490137124014966849385397236206711298319112681620113024717539104666829230461005064372655017292012526615415482186989568.0

  /**
   * The number a mathematical value denotes once it is stored as a double,
   * as far as the double's range goes.
   */
  function ToDouble(r: real): (n: Num)
    ensures !n.NaN?
  {
    if r >= OverflowBound then PosInf
    else if r <= -OverflowBound then NegInf
    else if -UnderflowBound <= r <= UnderflowBound then Finite(0.0)
    else Finite(r)
  }

  /**
   * A value is finite exactly below the overflow bound, and is then stored
   * exactly unless it is so small that it becomes zero.
   */
  lemma ToDoubleRange(r: real)
    ensures ToDouble(r).Finite? <==> -OverflowBound < r < OverflowBound
    ensures ToDouble(r) == PosInf <==> r >= OverflowBound
    ensures ToDouble(r).Finite? ==> ToDouble(r).value == r || (ToDouble(r).value == 0.0 && -UnderflowBound <= r <= UnderflowBound)
  {
  }

  /** A value in the calculator's display range is stored unchanged. */
  lemma ToDoubleExact(r: real)
    requires r == 0.0 || 0.00000001 <= r <= 1000000000000000000000.0 || -1000000000000000000000.0 <= r <= -0.00000001
    ensures ToDouble(r) == Finite(r)
  {
  }

  /** Unary minus. */
  function Neg(a: Num): (r: Num)
    ensures a.Finite? <==> r.Finite?
    ensures a.NaN? <==> r.NaN?
  {
    match a
    case Finite(x) => Finite(-x)
    case PosInf => NegInf
    case NegInf => PosInf
    case NaN => NaN
  }

  /** `a + b` for JavaScript numbers. */
  function Add(a: Num, b: Num): Num
  {
    match (a, b)
    case (NaN, _) => NaN
    case (_, NaN) => NaN
    case (PosInf, NegInf) => NaN
    case (NegInf, PosInf) => NaN
    case (PosInf, _) => PosInf
    case (_, PosInf) => PosInf
    case (NegInf, _) => NegInf
    case (_, NegInf) => NegInf
    case (Finite(x), Finite(y)) => ToDouble(x + y)
  }

  /** `a - b` for JavaScript numbers. */
  function Sub(a: Num, b: Num): Num
  {
    Add(a, Neg(b))
  }

  /** The sign of a non-NaN value: -1, 0 or 1. */
  function Sign(a: Num): int
    requires !a.NaN?
  {
    match a
    case Finite(x) => if x < 0.0 then -1 else if x == 0.0 then 0 else 1
    case PosInf => 1
    case NegInf => -1
  }

  /** The infinity with the given non-zero sign. */
  function Infinity(sign: int): Num
  {
    if sign < 0 then NegInf else PosInf
  }

  /** `a * b` for JavaScript numbers. */
  function Mul(a: Num, b: Num): Num
  {
    if a.NaN? || b.NaN? then NaN
    else if a.Finite? && b.Finite? then ToDouble(a.value * b.value)
    else if Sign(a) == 0 || Sign(b) == 0 then NaN
    else Infinity(Sign(a) * Sign(b))
  }

  /**
   * `a / b` for JavaScript numbers and a non-zero divisor. The component
   * tests the divisor against 0 before dividing, and this model does not
   * keep the sign of a zero that a quotient by zero would need.
   */
  function Div(a: Num, b: Num): Num
    requires b != Finite(0.0)
  {
    if a.NaN? || b.NaN? then NaN
    else if a.Finite? && b.Finite? then ToDouble(a.value / b.value)
    else if !a.Finite? && !b.Finite? then NaN
    else if a.Finite? then Finite(0.0)
    else Infinity(Sign(a) * Sign(b))
  }

  /** Arithmetic on two finite values gives NaN only for no pair of inputs. */
  lemma FiniteArithmeticIsNumber(x: real, y: real)
    ensures !Add(Finite(x), Finite(y)).NaN?
    ensures !Sub(Finite(x), Finite(y)).NaN?
    ensures !Mul(Finite(x), Finite(y)).NaN?
    ensures y != 0.0 ==> !Div(Finite(x), Finite(y)).NaN?
  {
  }
}

=== FILE: KeyEntry.dfy ===
/**
 * What the display shows after a run of keypad presses (digits and the
 * point) starting from a display of `0`: the presses with every point after
 * the first dropped and the leading zeros dropped, with a `0` put back in
 * front when nothing or only a fraction is left. This is the text
 * `appendNumber` (src/app/app.component.ts:196-208) builds one key at a time.
 */
module KeyEntry {
  import opened Decimal
  import opened CalculatorState

  /** Every press is a digit or the point. */
  predicate KeysOnly(keys: string)
  {
    forall i :: 0 <= i < |keys| ==> IsDigit(keys[i]) || keys[i] == '.'
  }

  /** The state after each key of `keys` is passed to appendNumber in turn. */
  function Typed(st: State, keys: string): State
  {
    if keys == [] then st
    else AppendNumber(Typed(st, keys[..|keys| - 1]), [keys[|keys| - 1]])
  }

  function WithoutPoints(s: string): (r: string)
    ensures '.' !in r
  {
    if s == [] then [] else (if s[0] == '.' then [] else [s[0]]) + WithoutPoints(s[1..])
  }

  /** s with every point after the first removed. */
  function FirstPointOnly(s: string): (r: string)
    ensures '.' in r <==> '.' in s
  {
    if s == [] then []
    else if s[0] == '.' then "." + WithoutPoints(s[1..])
    else [s[0]] + FirstPointOnly(s[1..])
  }

  /** s without its leading zeros. */
  function LeadingZerosDropped(s: string): (r: string)
    ensures r == [] || r[0] != '0'
    ensures '.' in r <==> '.' in s
  {
    if s != [] && s[0] == '0' then LeadingZerosDropped(s[1..]) else s
  }

  /** The display text for a run of presses typed onto a display of `0`. */
  function EnteredText(keys: string): (r: string)
    ensures r != [] && (|r| > 1 && r[0] == '0' ==> r[1] == '.')
    ensures '.' in r <==> '.' in keys
  {
    Unpadded(FirstPointOnly(keys))
  }

  /** Digits and points without their leading zeros, with `0` put back before a bare fraction. */
  function Unpadded(d: string): (r: string)
    ensures r != [] && (|r| > 1 && r[0] == '0' ==> r[1] == '.')
    ensures '.' in r <==> '.' in d
  {
    var z := LeadingZerosDropped(d);
    if z == [] || z[0] == '.' then "0" + z else z
  }

  lemma {:induction false} WithoutPointsSnoc(s: string, k: char)
    ensures WithoutPoints(s + [k]) == WithoutPoints(s) + (if k == '.' then [] else [k])
  {
    if s == [] {
      assert s + [k] == [k];
    } else {
      assert (s + [k])[1..] == s[1..] + [k];
      WithoutPointsSnoc(s[1..], k);
    }
  }

  lemma {:induction false} FirstPointOnlySnoc(s: string, k: char)
    ensures FirstPointOnly(s + [k]) == FirstPointOnly(s) + (if k == '.' && '.' in s then [] else [k])
  {
    if s == [] {
      assert s + [k] == [k];
      if k == '.' {
        assert FirstPointOnly([k]) == "." + WithoutPoints([]);
      }
    } else {
      assert (s + [k])[1..] == s[1..] + [k];
      if s[0] == '.' {
        WithoutPointsSnoc(s[1..], k);
      } else {
        FirstPointOnlySnoc(s[1..], k);
        assert '.' in s <==> '.' in s[1..] by {
          assert s == [s[0]] + s[1..];
        }
      }
    }
  }

  lemma {:induction false} LeadingZerosDroppedSnoc(s: string, k: char)
    ensures LeadingZerosDropped(s + [k]) ==
      if LeadingZerosDropped(s) == [] then LeadingZerosDropped([k]) else LeadingZerosDropped(s) + [k]
  {
    if s == [] {
      assert s + [k] == [k];
    } else if s[0] == '0' {
      assert (s + [k])[1..] == s[1..] + [k];
      LeadingZerosDroppedSnoc(s[1..], k);
    }
  }

  /** One more press changes the reference text exactly as appendNumber changes the display. */
  lemma EnteredSnoc(keys: string, k: char)
    requires IsDigit(k) || k == '.'
    ensures var c := EnteredText(keys);
      EnteredText(keys + [k]) ==
        if k == '.' && '.' in c then c
        else if c == "0" && k != '.' then [k]
        else c + [k]
  {
    var d := FirstPointOnly(keys);
    FirstPointOnlySnoc(keys, k);
    if k == '.' && '.' in keys {
      assert FirstPointOnly(keys + [k]) == d;
    } else {
      assert FirstPointOnly(keys + [k]) == d + [k];
      UnpaddedSnoc(d, k);
    }
  }

  lemma UnpaddedSnoc(d: string, k: char)
    requires IsDigit(k) || k == '.'
    ensures Unpadded(d + [k]) == if Unpadded(d) == "0" && k != '.' then [k] else Unpadded(d) + [k]
  {
    var z := LeadingZerosDropped(d);
    LeadingZerosDroppedSnoc(d, k);
    if z == [] {
      if k == '0' {
        assert LeadingZerosDropped([k]) == LeadingZerosDropped([k][1..]);
      } else {
        assert LeadingZerosDropped([k]) == [k];
      }
    } else if z[0] == '.' {
      assert "0" + (z + [k]) == ("0" + z) + [k];
    }
  }

  /**
   * Typing a run of presses onto a display of `0` shows the reference text,
   * and changes nothing else.
   */
  lemma {:induction false} TypedShowsEntered(st: State, keys: string)
    requires !st.waiting && st.current == "0" && KeysOnly(keys)
    ensures Typed(st, keys) == st.(current := EnteredText(keys))
  {
    if keys != [] {
      var init, k := keys[..|keys| - 1], keys[|keys| - 1];
      assert keys == init + [k];
      assert KeysOnly(init);
      TypedShowsEntered(st, init);
      EnteredSnoc(init, k);
      if k == '.' {
        assert [k] == ".";
      }
    } else {
      assert EnteredText([]) == "0";
    }
  }

  /** In particular from the initial state, and so after `clear`. */
  lemma TypedFromInitial(keys: string)
    requires KeysOnly(keys)
    ensures Typed(Initial, keys) == State(EnteredText(keys), "", None, false)
  {
    TypedShowsEntered(Initial, keys);
  }
}

=== FILE: NumberFormat.dfy ===
/**
 * `formatNumber`, the private helper that turns a computed result into the
 * display text (src/app/app.component.ts:260-273), with the two pieces of the
 * JavaScript library it relies on: `Number.prototype.toExponential(6)` and the
 * `toString` of a value rounded by `Math.round(num * 1e8) / 1e8`.
 *
 * The arithmetic is exact (see JsNumber): the double rounding inside
 * `num * 100000000`, the division by 100000000 and the shortest-round-trip
 * digit choice of `toString` are not modelled: the model prints the exact
 * decimal expansion of the value rounded to eight decimals.
 */
module NumberFormat {
  import opened Decimal
  import opened JsNumber
  import opened FloatParser
  import opened ScientificNotation

  function Abs(x: real): real
  {
    if x < 0.0 then -x else x
  }

  /** `x.toExponential(6)` for x >= 0. */
  function UnsignedExponential(x: real): (s: string)
    requires x >= 0.0
  {
    var p := if x == 0.0 then Scientific(0, 0) else Significand7(x);
    [DigitChar(p.significand / 1000000)] + "." + SixDigits(p.significand % 1000000) + ("e" + SignedNumeral(p.exponent))
  }

  /** The six digits after the point of a seven-digit significand. */
  function SixDigits(n: nat): (s: string)
    requires n < 1000000
    ensures |s| == 6 && AllDigits(s) && DigitsValue(s) == n
  {
    NatToStringLength(n, 6);
    assert Pow10Nat(6) == 1000000;
    NatToStringValue(n);
    PadLeftValue(NatToString(n), 6);
    PadLeft(NatToString(n), 6)
  }

  /** `x.toExponential(6)`. */
  function ExponentialString(x: real): string
  {
    var u := UnsignedExponential(Abs(x));
    if x < 0.0 then "-" + u else u
  }

  /** The fraction digits of m/10^8: at most eight, without trailing zeros. */
  function FractionText(m: nat): string
  {
    StripTrailingZeros(PadLeft(NatToString(m % 100000000), 8))
  }

  /** What `toString` prints for m/10^8, m >= 0: the whole part, then the fraction without trailing zeros. */
  function UnsignedFixedString(m: nat): string
  {
    NatToString(m / 100000000) + (if m % 100000000 == 0 then "" else "." + FractionText(m))
  }

  /** What `(n / 1e8).toString()` prints (a negative zero prints as `0`). */
  function FixedString(n: int): string
  {
    var u := UnsignedFixedString(if n < 0 then -n else n);
    if n < 0 then "-" + u else u
  }

  /** Whether formatNumber uses exponential notation for a finite value. */
  predicate NeedsExponent(x: real)
  {
    Abs(x) > 999999999.0 || (Abs(x) < 0.000001 && x != 0.0)
  }

  /** `formatNumber` (src/app/app.component.ts:260-273). */
  function FormatNumber(num: Num): (s: string)
    ensures !num.Finite? ==> s == "Error"
    ensures num.Finite? ==> s != [] && (IsDigit(s[0]) || s[0] == '-')
  {
    match num
    case Finite(x) =>
      if NeedsExponent(x) then
        ExponentialShape(x);
        ExponentialString(x)
      else
        FixedShape(MathRound(x * 100000000.0));
        FixedString(MathRound(x * 100000000.0))
    case _ => "Error"
  }

  /** The number of decimal points in a string. */
  function PointCount(s: string): nat
  {
    multiset(s)['.']
  }

  lemma DigitsHaveNoPoint(s: string)
    requires AllDigits(s)
    ensures PointCount(s) == 0
  {
  }

  lemma ExponentTextShape(e: int)
    ensures PointCount("e" + SignedNumeral(e)) == 0
  {
    var t := SignedNumeral(e);
    DigitsHaveNoPoint(t[1..]);
    assert t == [t[0]] + t[1..];
  }

  /** toExponential(6) of a non-negative value: a digit first, and exactly one point. */
  lemma UnsignedExponentialShape(x: real)
    requires x >= 0.0
    ensures IsDigit(UnsignedExponential(x)[0])
    ensures PointCount(UnsignedExponential(x)) == 1
  {
    var p := if x == 0.0 then Scientific(0, 0) else Significand7(x);
    DigitsHaveNoPoint(SixDigits(p.significand % 1000000));
    ExponentTextShape(p.exponent);
  }

  /** toString of m/10^8: a digit first, and at most one point. */
  lemma UnsignedFixedShape(m: nat)
    ensures IsDigit(UnsignedFixedString(m)[0])
    ensures PointCount(UnsignedFixedString(m)) <= 1
  {
    var frac := m % 100000000;
    DigitsHaveNoPoint(NatToString(m / 100000000));
    if frac != 0 {
      var padded := PadLeft(NatToString(frac), 8);
      StripTrailingZerosValue(padded);
      DigitsHaveNoPoint(StripTrailingZeros(padded));
    }
  }

  lemma ExponentialShape(x: real)
    ensures var s := ExponentialString(x);
      s != [] && (IsDigit(s[0]) || s[0] == '-') && PointCount(s) <= 1
  {
    UnsignedExponentialShape(Abs(x));
  }

  lemma FixedShape(n: int)
    ensures var s := FixedString(n);
      s != [] && (IsDigit(s[0]) || s[0] == '-') && PointCount(s) <= 1
  {
    UnsignedFixedShape(if n < 0 then -n else n);
  }

  /** A formatted finite value starts with a digit or a minus sign and holds at most one point. */
  lemma FormatFiniteShape(x: real)
    ensures var s := FormatNumber(Finite(x));
      s != [] && (IsDigit(s[0]) || s[0] == '-') && PointCount(s) <= 1
  {
    if NeedsExponent(x) {
      FormatExponentialText(x);
      ExponentialShape(x);
    } else {
      var n := MathRound(x * 100000000.0);
      FormatFixedText(x, n);
      FixedShape(n);
    }
  }

  /** In the exponential range formatNumber prints toExponential(6). */
  lemma FormatExponentialText(x: real)
    requires NeedsExponent(x)
    ensures FormatNumber(Finite(x)) == ExponentialString(x)
  {
    var s, t := FormatNumber(Finite(x)), ExponentialString(x);
    assert s == t;
  }

  /** Otherwise it prints the value rounded to eight decimals. */
  lemma FormatFixedText(x: real, n: int)
    requires !NeedsExponent(x) && n == MathRound(x * 100000000.0)
    ensures FormatNumber(Finite(x)) == FixedString(n)
  {
    var s, t := FormatNumber(Finite(x)), FixedString(n);
    assert s == t;
  }

  /** The display shows `Error` exactly when the result is not a finite number. */
  lemma FormatNumberError(num: Num)
    ensures FormatNumber(num) == "Error" <==> !num.Finite?
  {
    if num.Finite? {
      FormatFiniteShape(num.value);
      assert "Error"[0] == 'E';
    }
  }

  /** formatNumber never yields an empty display, and never one with two points. */
  lemma FormatNumberShape(num: Num)
    ensures FormatNumber(num) != []
    ensures PointCount(FormatNumber(num)) <= 1
  {
    if num.Finite? {
      FormatFiniteShape(num.value);
    } else {
      assert PointCount("Error") == 0 by {
        DigitsHaveNoPoint([]);
        assert '.' !in "Error";
      }
    }
  }

  /**
   * The text of toExponential(6): an optional minus sign, one digit, a point,
   * six digits, `e`, a sign and the exponent's digits.
   */
  predicate ExponentialForm(s: string)
  {
    var u := if s != [] && s[0] == '-' then s[1..] else s;
    |u| >= 11 && IsDigit(u[0]) && u[1] == '.' && AllDigits(u[2..8]) && u[8] == 'e'
    && (u[9] == '+' || u[9] == '-') && AllDigits(u[10..])
  }

  /** The exponential text of a non-zero value has the form above and a leading digit other than `0`. */
  lemma UnsignedExponentialForm(x: real)
    requires x > 0.0
    ensures ExponentialForm(UnsignedExponential(x)) && UnsignedExponential(x)[0] != '0'
  {
    var p := Significand7(x);
    var d, six, ex := DigitChar(p.significand / 1000000), SixDigits(p.significand % 1000000), SignedNumeral(p.exponent);
    var u := [d] + "." + six + ("e" + ex);
    assert UnsignedExponential(x) == u;
    assert u[2..8] == six;
    assert u[10..] == ex[1..];
  }

  /**
   * A finite value is displayed in exponential form exactly when it lies
   * outside the fixed range; the leading digit is then never `0`.
   */
  lemma FormatExponentialForm(x: real)
    ensures ExponentialForm(FormatNumber(Finite(x))) <==> NeedsExponent(x)
    ensures var s := FormatNumber(Finite(x));
      NeedsExponent(x) ==> (if x < 0.0 then s[1] else s[0]) != '0'
    ensures !NeedsExponent(x) ==> 'e' !in FormatNumber(Finite(x))
  {
    if NeedsExponent(x) {
      FormatExponentialText(x);
      UnsignedExponentialForm(Abs(x));
      var u := UnsignedExponential(Abs(x));
      if x < 0.0 {
        assert ("-" + u)[1..] == u;
      }
    } else {
      var n := MathRound(x * 100000000.0);
      FormatFixedText(x, n);
      FixedHasNoExponent(n);
    }
  }

  /** The fixed text holds no `e`. */
  lemma FixedHasNoExponent(n: int)
    ensures 'e' !in FixedString(n)
    ensures !ExponentialForm(FixedString(n))
  {
    var m := if n < 0 then -n else n;
    var w := NatToString(m / 100000000);
    assert 'e' !in w by { DigitsNotE(w); }
    var u := UnsignedFixedString(m);
    if m % 100000000 != 0 {
      var padded := PadLeft(NatToString(m % 100000000), 8);
      StripTrailingZerosValue(padded);
      DigitsNotE(StripTrailingZeros(padded));
      assert u == w + "." + StripTrailingZeros(padded);
    } else {
      assert u == w + "";
    }
    assert 'e' !in u;
    var s := FixedString(n);
    assert 'e' !in s;
  }

  lemma DigitsNotE(s: string)
    requires AllDigits(s)
    ensures 'e' !in s
  {
    assert forall i :: 0 <= i < |s| ==> s[i] != 'e';
  }

  /** A whole number of at most nine digits is displayed as its numeral, signed when negative. */
  lemma IntegerDisplay(v: int)
    requires -999999999 <= v <= 999999999
    ensures FormatNumber(Finite(v as real)) == if v < 0 then "-" + NatToString(-v) else NatToString(v)
  {
    var x := v as real;
    var n := v * 100000000;
    RoundWhole(x, n);
    FormatFixedText(x, n);
    FixedWhole(v, n);
  }

  lemma RoundWhole(x: real, n: int)
    requires n as real == x * 100000000.0
    ensures MathRound(x * 100000000.0) == n
  {
  }

  lemma FixedWhole(v: int, n: int)
    requires n == v * 100000000
    ensures FixedString(n) == if v < 0 then "-" + NatToString(-v) else NatToString(v)
  {
    if v < 0 {
      assert n < 0 && -n == -v * 100000000;
      WholeText(-n, -v);
    } else {
      assert n >= 0;
      WholeText(n, v);
    }
  }

  lemma WholeText(m: nat, w: nat)
    requires m == w * 100000000
    ensures UnsignedFixedString(m) == NatToString(w)
  {
    assert m % 100000000 == 0 && m / 100000000 == w;
    var s := NatToString(w);
    assert s + "" == s;
  }
}

=== FILE: Scenarios.dfy ===
/**
 * The component's own non-UI test scenarios (src/app/app.component.spec.ts).
 * Each method drives a fresh `AppComponent` as its test does, and its
 * postcondition is what the test expects to see. The formatting tests call
 * `formatNumber` directly and are lemmas about `FormatNumber`. The last two
 * methods drive the chained key sequence of the finding in README.md.
 */
module Scenarios {
  import opened Decimal
  import opened JsNumber
  import opened FloatParser
  import opened ScientificNotation
  import opened NumberFormat
  import opened CalculatorState
  import opened Calculator

  /** A numeral reads back as the number it spells. */
  lemma ReadNumeral(v: nat)
    requires v <= 1000000000
    ensures ParseFloat(NatToString(v)) == Finite(v as real)
  {
    var s := NatToString(v);
    ParseInteger(s);
    NatToStringValue(v);
    ToDoubleExact(v as real);
  }

  /** The numerals the scenarios type and expect. */
  lemma Numerals()
    ensures NatToString(0) == "0" && NatToString(2) == "2" && NatToString(3) == "3"
    ensures NatToString(4) == "4" && NatToString(5) == "5" && NatToString(6) == "6"
    ensures NatToString(7) == "7" && NatToString(10) == "10" && NatToString(15) == "15"
    ensures NatToString(20) == "20" && NatToString(30) == "30" && NatToString(42) == "42"
  {
  }

  /** Whole operands whose operation yields a whole result show that result's numeral. */
  lemma WholeResultShows(st: State, x: nat, y: nat, r: nat)
    requires x <= 1000000000 && y <= 1000000000 && r <= 999999999
    requires st.previous == NatToString(x) && st.current == NatToString(y)
    requires Evaluate(Finite(x as real), Finite(y as real), st.operation) == Result(Finite(r as real))
    ensures CalculatorState.Compute(st) == State(NatToString(r), "", None, true)
  {
    ReadNumeral(x);
    ReadNumeral(y);
    IntegerDisplay(r);
  }

  /** Within the exactly representable range the four operators compute exactly. */
  lemma SumExact(x: real, y: real, r: real)
    requires r == x + y && (r == 0.0 || 0.00000001 <= r <= 1000000000.0)
    ensures Evaluate(Finite(x), Finite(y), Some("+")) == Result(Finite(r))
  {
    ToDoubleExact(r);
    assert Add(Finite(x), Finite(y)) == Finite(r);
  }

  lemma DifferenceExact(x: real, y: real, r: real)
    requires r == x - y && (r == 0.0 || 0.00000001 <= r <= 1000000000.0)
    ensures Evaluate(Finite(x), Finite(y), Some("-")) == Result(Finite(r))
  {
    ToDoubleExact(r);
    assert Sub(Finite(x), Finite(y)) == Add(Finite(x), Finite(-y)) == Finite(r);
  }

  lemma ProductExact(x: real, y: real, r: real)
    requires r == x * y && (r == 0.0 || 0.00000001 <= r <= 1000000000.0)
    ensures Evaluate(Finite(x), Finite(y), Some("*")) == Result(Finite(r))
  {
    ToDoubleExact(r);
    assert Mul(Finite(x), Finite(y)) == Finite(r);
  }

  lemma QuotientExact(x: real, y: real, r: real)
    requires y != 0.0 && r == x / y && (r == 0.0 || 0.00000001 <= r <= 1000000000.0)
    ensures Evaluate(Finite(x), Finite(y), Some("/")) == Result(Finite(r))
  {
    ToDoubleExact(r);
    assert Div(Finite(x), Finite(y)) == Finite(r);
  }

  /** A one-digit whole part, a point and one fraction digit. */
  lemma ReadsTenths(w: char, f: char, v: real)
    requires IsDigit(w) && IsDigit(f) && v == (10 * DigitValue(w) + DigitValue(f)) as real / 10.0
    requires 0.00000001 <= v
    ensures ParseFloat([w, '.', f]) == Finite(v)
  {
    var ws, fs := [w], [f];
    assert [w, '.', f] == ws + "." + fs;
    assert DigitsValue(ws + fs) == 10 * DigitValue(w) + DigitValue(f) by {
      var d := ws + fs;
      assert ws[..0] == [];
      assert DigitsValue(ws) == DigitValue(w);
      assert d[..1] == ws && d[1] == f;
    }
    ReadPointed(ws, fs, v);
  }

  /** The numeral "1.5" and its kin: digits, a point, more digits. */
  lemma ReadPointed(w: string, f: string, v: real)
    requires w != [] && AllDigits(w) && f != [] && AllDigits(f)
    requires Scaled(DigitsValue(w + f), -|f|) == v && 0.00000001 <= v <= 1000000000.0
    ensures ParseFloat(w + "." + f) == Finite(v)
  {
    ParseFixedPoint(w, f);
    DigitsValueAppend(w, f);
    ToDoubleExact(v);
  }

  // Number input (src/app/app.component.spec.ts:55-105)

  method AppendDigits() returns (c: AppComponent)
    ensures c.currentOperand == "53"
  {
    c := new AppComponent();
    c.AppendNumber("5");
    assert c.currentOperand == "5";
    c.AppendNumber("3");
  }

  method ReplaceInitialZero() returns (c: AppComponent)
    ensures c.currentOperand == "7"
  {
    c := new AppComponent();
    c.AppendNumber("7");
  }

  method SecondPointIgnored() returns (c: AppComponent)
    ensures c.currentOperand == "3.14"
  {
    c := new AppComponent();
    PointSteps();
    c.AppendNumber("3");
    c.AppendNumber(".");
    c.AppendNumber("1");
    c.AppendNumber(".");
    c.AppendNumber("4");
  }

  lemma PointSteps()
    ensures AppendNumber(Initial, "3") == State("3", "", None, false)
    ensures AppendNumber(State("3", "", None, false), ".") == State("3.", "", None, false)
    ensures AppendNumber(State("3.", "", None, false), "1") == State("3.1", "", None, false)
    ensures AppendNumber(State("3.1", "", None, false), ".") == State("3.1", "", None, false)
    ensures AppendNumber(State("3.1", "", None, false), "4") == State("3.14", "", None, false)
  {
    assert "3" + "." == "3.";
    assert "3." + "1" == "3.1";
    assert "3.1"[1] == '.';
    assert "3.1" + "4" == "3.14";
  }

  method DecimalPointInput() returns (c: AppComponent)
    ensures c.currentOperand == "3.14"
  {
    c := new AppComponent();
    PointSteps();
    c.AppendNumber("3");
    c.AppendNumber(".");
    c.AppendNumber("1");
    c.AppendNumber("4");
  }

  method PointFirst() returns (c: AppComponent)
    ensures c.currentOperand == "0.5"
  {
    c := new AppComponent();
    c.AppendNumber(".");
    assert c.currentOperand == "0.";
    c.AppendNumber("5");
  }

  method ReplaceWhenWaiting() returns (c: AppComponent)
    ensures c.currentOperand == "5" && !c.waitingForOperand
  {
    c := new AppComponent();
    c.waitingForOperand := true;
    c.currentOperand := "10";
    c.AppendNumber("5");
  }

  // Clear and delete (src/app/app.component.spec.ts:109-170)

  method ClearResets() returns (c: AppComponent)
    ensures c.Snapshot() == Initial
  {
    c := new AppComponent();
    c.currentOperand := "123";
    c.previousOperand := "456";
    c.operation := Some("+");
    c.waitingForOperand := true;
    c.Clear();
  }

  method DeleteOneDigit() returns (c: AppComponent)
    ensures c.currentOperand == "12"
  {
    c := new AppComponent();
    c.currentOperand := "123";
    assert "123"[..2] == "12";
    c.Delete();
  }

  method DeleteDigits() returns (c: AppComponent)
    ensures c.currentOperand == "12"
  {
    c := new AppComponent();
    c.currentOperand := "12.34";
    DeleteSteps();
    c.Delete();
    c.Delete();
    c.Delete();
  }

  lemma DeleteSteps()
    ensures CalculatorState.Delete(State("12.34", "", None, false)) == State("12.3", "", None, false)
    ensures CalculatorState.Delete(State("12.3", "", None, false)) == State("12.", "", None, false)
    ensures CalculatorState.Delete(State("12.", "", None, false)) == State("12", "", None, false)
  {
    assert "12.34"[..4] == "12.3";
    assert "12.3"[..3] == "12.";
    assert "12."[..2] == "12";
  }

  method DeleteLastDigit() returns (c: AppComponent)
    ensures c.currentOperand == "0"
  {
    c := new AppComponent();
    c.currentOperand := "5";
    c.Delete();
    assert c.currentOperand == "0";
    c.Delete();
  }

  // Choosing operators (src/app/app.component.spec.ts:183-214)

  method StageOperand() returns (c: AppComponent)
    ensures c.Snapshot() == State("10", "10", Some("+"), true)
  {
    c := new AppComponent();
    c.currentOperand := "10";
    c.ChooseOperation("+");
  }

  method SwapOperator() returns (c: AppComponent)
    ensures c.Snapshot() == State("10", "10", Some("-"), true)
  {
    c := new AppComponent();
    c.currentOperand := "10";
    c.ChooseOperation("+");
    c.ChooseOperation("-");
  }

  /** `10 +`, then `5` and `*`: the sum is folded onto the display. */
  method ChainOperators() returns (c: AppComponent)
    ensures c.Snapshot() == State("15", "", Some("*"), true)
  {
    c := new AppComponent();
    c.currentOperand := "10";
    c.ChooseOperation("+");
    c.currentOperand := "5";
    c.waitingForOperand := false;
    SumShows(c.Snapshot());
    c.ChooseOperation("*");
  }

  // Arithmetic (src/app/app.component.spec.ts:222-282)

  /**
   * The shape of the arithmetic tests: after clear, the display is set to a,
   * the operator chosen, the display set to b, and equals pressed.
   */
  method Binary(a: string, op: string, b: string) returns (c: AppComponent)
    ensures fresh(c)
    ensures c.Snapshot() == CalculatorState.Compute(State(b, a, Some(op), true))
  {
    c := new AppComponent();
    c.currentOperand := a;
    c.ChooseOperation(op);
    c.currentOperand := b;
    c.Compute();
  }

  lemma SumShows(st: State)
    requires st.current == "5" && st.previous == "10" && st.operation == Some("+")
    ensures CalculatorState.Compute(st) == State("15", "", None, true)
  {
    Numerals();
    SumExact(10.0, 5.0, 15.0);
    WholeResultShows(st, 10, 5, 15);
  }

  method Addition() returns (c: AppComponent)
    ensures c.Snapshot() == State("15", "", None, true)
  {
    c := Binary("10", "+", "5");
    SumShows(State("5", "10", Some("+"), true));
  }

  lemma DifferenceShows(st: State)
    requires st == State("3", "10", Some("-"), true)
    ensures CalculatorState.Compute(st) == State("7", "", None, true)
  {
    Numerals();
    DifferenceExact(10.0, 3.0, 7.0);
    WholeResultShows(st, 10, 3, 7);
  }

  method Subtraction() returns (c: AppComponent)
    ensures c.currentOperand == "7"
  {
    c := Binary("10", "-", "3");
    DifferenceShows(State("3", "10", Some("-"), true));
  }

  lemma ProductShows(st: State)
    requires st == State("7", "6", Some("*"), true)
    ensures CalculatorState.Compute(st) == State("42", "", None, true)
  {
    Numerals();
    ProductExact(6.0, 7.0, 42.0);
    WholeResultShows(st, 6, 7, 42);
  }

  method Multiplication() returns (c: AppComponent)
    ensures c.currentOperand == "42"
  {
    c := Binary("6", "*", "7");
    ProductShows(State("7", "6", Some("*"), true));
  }

  lemma QuotientShows(st: State)
    requires st == State("4", "20", Some("/"), true)
    ensures CalculatorState.Compute(st) == State("5", "", None, true)
  {
    Numerals();
    QuotientExact(20.0, 4.0, 5.0);
    WholeResultShows(st, 20, 4, 5);
  }

  method Division() returns (c: AppComponent)
    ensures c.currentOperand == "5"
  {
    c := Binary("20", "/", "4");
    QuotientShows(State("4", "20", Some("/"), true));
  }

  lemma DecimalSumShows()
    ensures CalculatorState.Compute(State("2.7", "1.5", Some("+"), true)) == State("4.2", "", None, true)
  {
    ReadsTenths('1', '5', 1.5);
    ReadsTenths('2', '7', 2.7);
    SumExact(1.5, 2.7, 4.2);
    ComputeOutcome(State("2.7", "1.5", Some("+"), true));
    FormatFixedText(4.2, 420000000);
    Fixed42();
  }

  lemma Fixed42()
    ensures FixedString(420000000) == "4.2"
  {
    assert NatToString(4) == "4" && NatToString(2) == "2";
    assert Pow10Nat(7) == 10000000;
    FractionOf(420000000, 2, 7);
    FixedText(420000000, "4", "2");
  }

  /** 1.5 + 2.7 shows 4.2, which reads back as 4.2. */
  method DecimalSum() returns (c: AppComponent)
    ensures c.currentOperand == "4.2" && ParseFloat(c.currentOperand) == Finite(4.2)
  {
    c := Binary("1.5", "+", "2.7");
    DecimalSumShows();
    ReadsTenths('4', '2', 4.2);
  }

  lemma TenthsSumShows()
    ensures CalculatorState.Compute(State("0.2", "0.1", Some("+"), true)) == State("0.3", "", None, true)
  {
    ReadsTenths('0', '1', 0.1);
    ReadsTenths('0', '2', 0.2);
    SumExact(0.1, 0.2, 0.3);
    ComputeOutcome(State("0.2", "0.1", Some("+"), true));
    FormatFixedText(0.3, 30000000);
    Fixed03();
  }

  /** 0.1 + 0.2 shows 0.3, which reads back as 0.3. */
  method FloatingPrecision() returns (c: AppComponent)
    ensures c.currentOperand == "0.3" && ParseFloat(c.currentOperand) == Finite(0.3)
  {
    c := Binary("0.1", "+", "0.2");
    TenthsSumShows();
    ReadsTenths('0', '3', 0.3);
  }

  // Error handling (src/app/app.component.spec.ts:286-320)

  lemma ZeroDivisorShows(st: State)
    requires st.current == "0" && st.previous == "10" && st.operation == Some("/")
    ensures CalculatorState.Compute(st) == State("Error", "", None, true)
  {
    Numerals();
    ReadNumeral(10);
    ReadNumeral(0);
  }

  method DivideByZero() returns (c: AppComponent)
    ensures c.Snapshot() == State("Error", "", None, true)
  {
    c := Binary("10", "/", "0");
    ZeroDivisorShows(State("0", "10", Some("/"), true));
  }

  lemma UnknownOperatorIgnored(st: State)
    requires st == State("10", "5", Some("invalid"), false)
    ensures CalculatorState.Compute(st) == st
  {
    assert !IsOperator("invalid");
  }

  /** The shape of the error tests: the fields are set directly, then equals is pressed. */
  method ComputeFrom(st: State) returns (c: AppComponent)
    ensures c.Snapshot() == CalculatorState.Compute(st)
  {
    c := new AppComponent();
    c.currentOperand := st.current;
    c.previousOperand := st.previous;
    c.operation := st.operation;
    c.waitingForOperand := st.waiting;
    c.Compute();
  }

  method InvalidOperator() returns (c: AppComponent)
    ensures c.Snapshot() == State("10", "5", Some("invalid"), false)
  {
    var st := State("10", "5", Some("invalid"), false);
    c := ComputeFrom(st);
    UnknownOperatorIgnored(st);
  }

  lemma UnreadableOperandIgnored(st: State)
    requires st.previous == "invalid"
    ensures CalculatorState.Compute(st) == st
  {
    ParseFloatLetter(st.previous);
  }

  method NaNInput() returns (c: AppComponent)
    ensures c.Snapshot() == State("10", "invalid", Some("+"), false)
  {
    var st := State("10", "invalid", Some("+"), false);
    c := ComputeFrom(st);
    UnreadableOperandIgnored(st);
  }

  // Complex operations (src/app/app.component.spec.ts:405-455)

  /** `10 + 5 =` with the 5 typed on the keypad. */
  method TypedAddition() returns (c: AppComponent)
    ensures fresh(c)
    ensures c.Snapshot() == State("15", "", None, true)
  {
    c := new AppComponent();
    c.currentOperand := "10";
    c.ChooseOperation("+");
    c.AppendNumber("5");
    SumShows(c.Snapshot());
    c.Compute();
  }

  /** With the pending operation cleared, a second equals changes nothing. */
  method ConsecutiveEquals() returns (c: AppComponent)
    ensures c.Snapshot() == State("15", "", None, true)
  {
    c := TypedAddition();
    EmptyLeftIgnored(c.Snapshot());
    c.Compute();
  }

  /** The same with the 5 set on the display directly. */
  method ConsecutiveEqualsSet() returns (c: AppComponent)
    ensures c.Snapshot() == State("15", "", None, true)
  {
    c := Binary("10", "+", "5");
    SumShows(State("5", "10", Some("+"), true));
    EmptyLeftIgnored(c.Snapshot());
    c.Compute();
  }

  /** After `10 / 0 =`, clear and 5 show 5. */
  method ResetAfterError() returns (c: AppComponent)
    ensures c.Snapshot() == State("5", "", None, false)
  {
    c := new AppComponent();
    c.currentOperand := "10";
    c.ChooseOperation("/");
    c.currentOperand := "0";
    ZeroDivisorShows(c.Snapshot());
    c.Compute();
    assert c.currentOperand == "Error";
    c.Clear();
    c.AppendNumber("5");
  }

  /** With no left operand, equals leaves the state as it is. */
  lemma EmptyLeftIgnored(st: State)
    requires st.previous == ""
    ensures CalculatorState.Compute(st) == st
  {
    ParseFloatEmpty();
  }

  // Three operands (see ChooseOperationStaging in CalculatorState)

  /**
   * `1`, `0`, `+`, `5`, `*`, `2`, `=` on the component as written: the sum
   * 15 is folded onto the display but not staged as the left operand, so
   * equals finds no left operand and the display stays at 2.
   */
  method ChainedExpression() returns (c: AppComponent)
    ensures c.Snapshot() == State("2", "", Some("*"), false)
  {
    c := new AppComponent();
    c.AppendNumber("1");
    c.AppendNumber("0");
    assert c.currentOperand == "10";
    c.ChooseOperation("+");
    c.AppendNumber("5");
    SumShows(c.Snapshot());
    c.ChooseOperation("*");
    c.AppendNumber("2");
    EmptyLeftIgnored(c.Snapshot());
    c.Compute();
  }

  /** The same keys with the operand staged: equals shows (10 + 5) * 2 = 30. */
  lemma ChainedExpressionStaged()
    ensures var s := AppendNumber(ChooseOperationStaging(State("5", "10", Some("+"), false), "*"), "2");
      s == State("2", "15", Some("*"), false)
      && CalculatorState.Compute(s) == State("30", "", None, true)
  {
    var st := State("5", "10", Some("+"), false);
    SumShows(st);
    var s := AppendNumber(ChooseOperationStaging(st, "*"), "2");
    assert s == State("2", "15", Some("*"), false);
    ProductOfSumShows(s);
  }

  lemma ProductOfSumShows(st: State)
    requires st == State("2", "15", Some("*"), false)
    ensures CalculatorState.Compute(st) == State("30", "", None, true)
  {
    Numerals();
    ProductExact(15.0, 2.0, 30.0);
    WholeResultShows(st, 15, 2, 30);
  }

  // Number formatting (src/app/app.component.spec.ts:324-356)

  lemma FormatLarge()
    ensures FormatNumber(Finite(1000000000.0)) == "1.000000e+9"
  {
    var x := 1000000000.0;
    FormatExponentialText(x);
    PowerValues();
    SignificandOfPower(x, 9);
    ExponentialOfPower(x, 9);
    assert SignedNumeral(9) == "+9";
  }

  lemma FormatSmall()
    ensures FormatNumber(Finite(0.0000001)) == "1.000000e-7"
  {
    var x := 0.0000001;
    FormatExponentialText(x);
    PowerValues();
    SignificandOfPower(x, -7);
    ExponentialOfPower(x, -7);
    assert SignedNumeral(-7) == "-7";
  }

  lemma PowerValues()
    ensures Pow10(9) == 1000000000.0 && Pow10(-7) == 0.0000001
  {
    assert Pow10Nat(7) == 10000000;
    assert Pow10Nat(9) == 1000000000;
  }

  /** A power of ten is written with the significand 1000000. */
  lemma SignificandOfPower(x: real, e: int)
    requires x == Pow10(e)
    ensures Significand7(x) == Scientific(1000000, e)
  {
    Pow10Succ(e);
    DecimalExponentUnique(x, e);
    Pow10Down6(e);
    var q := Pow10(e - 6);
    DivideOut(x, q);
    assert MathRound(x / q) == 1000000;
  }

  lemma DivideOut(x: real, q: real)
    requires q > 0.0 && x == 1000000.0 * q
    ensures x / q == 1000000.0
  {
  }

  lemma ExponentialOfPower(x: real, e: int)
    requires x > 0.0 && Significand7(x) == Scientific(1000000, e)
    ensures ExponentialString(x) == "1.000000e" + SignedNumeral(e)
  {
    var sn := SignedNumeral(e);
    SixZeros();
    ExponentialDigits(x, Scientific(1000000, e));
    var head := [DigitChar(1)] + "." + SixDigits(0);
    assert head == "1.000000";
    assert head + ("e" + sn) == "1.000000e" + sn;
  }

  /** toExponential(6) of a positive value writes the digits of its chosen significand. */
  lemma ExponentialDigits(x: real, p: Scientific)
    requires x > 0.0 && Significand7(x) == p
    ensures ExponentialString(x)
      == [DigitChar(p.significand / 1000000)] + "." + SixDigits(p.significand % 1000000) + ("e" + SignedNumeral(p.exponent))
  {
    assert Abs(x) == x;
  }

  lemma SixZeros()
    ensures SixDigits(0) == "000000"
  {
    assert NatToString(0) == "0";
    assert Zeros(5) == "00000";
  }

  lemma FormatNonFinite()
    ensures FormatNumber(PosInf) == "Error" && FormatNumber(NegInf) == "Error" && FormatNumber(NaN) == "Error"
  {
  }

  lemma FormatWhole()
    ensures FormatNumber(Finite(0.0)) == "0" && FormatNumber(Finite(-42.0)) == "-42"
  {
    IntegerDisplay(0);
    IntegerDisplay(-42);
    assert NatToString(42) == "42";
  }

  lemma FormatFraction()
    ensures FormatNumber(Finite(123.456)) == "123.456"
  {
    FormatFixedText(123.456, 12345600000);
    Fixed123456();
  }

  lemma Fixed123456()
    ensures FixedString(12345600000) == "123.456"
  {
    assert NatToString(123) == "123" && NatToString(456) == "456";
    assert Pow10Nat(5) == 100000;
    FractionOf(12345600000, 456, 5);
    FixedText(12345600000, "123", "456");
  }

  lemma FormatRounding()
    ensures FormatNumber(Finite(0.30000000000000004)) == "0.3"
  {
    FormatFixedText(0.30000000000000004, 30000000);
    Fixed03();
  }

  lemma Fixed03()
    ensures FixedString(30000000) == "0.3"
  {
    assert NatToString(0) == "0" && NatToString(3) == "3";
    assert Pow10Nat(7) == 10000000;
    FractionOf(30000000, 3, 7);
    FixedText(30000000, "0", "3");
  }

  /** The fraction digits of m/10^8 when its last eight digits are n followed by k zeros. */
  lemma FractionOf(m: nat, n: nat, k: nat)
    requires 0 < n && n % 10 != 0
    requires m % 100000000 == n * Pow10Nat(k) && |NatToString(n)| + k == 8
    ensures FractionText(m) == NatToString(n)
  {
    var f := NatToString(n);
    NumeralZeros(n, k);
    assert f[|f| - 1] == DigitChar(n % 10);
    StripZeros(f, k);
  }

  /** Appending a zero to a numeral multiplies it by ten. */
  lemma NumeralTimesTen(n: nat)
    requires n > 0
    ensures NatToString(n * 10) == NatToString(n) + "0"
  {
    assert (n * 10) / 10 == n && (n * 10) % 10 == 0;
  }

  lemma {:induction false} NumeralZeros(n: nat, k: nat)
    requires n > 0
    ensures NatToString(n * Pow10Nat(k)) == NatToString(n) + Zeros(k)
  {
    if k == 0 {
      assert NatToString(n) + Zeros(0) == NatToString(n);
    } else {
      var m := n * Pow10Nat(k - 1);
      assert n * Pow10Nat(k) == m * 10;
      NumeralZeros(n, k - 1);
      NumeralTimesTen(m);
      assert NatToString(n) + Zeros(k) == (NatToString(n) + Zeros(k - 1)) + "0";
    }
  }

  /** Zeros appended to a numeral that does not end in 0 are exactly what is stripped. */
  lemma {:induction false} StripZeros(s: string, k: nat)
    requires s == [] || s[|s| - 1] != '0'
    ensures StripTrailingZeros(s + Zeros(k)) == s
  {
    if k == 0 {
      assert s + Zeros(0) == s;
    } else {
      StripZeros(s, k - 1);
      StripOne(s, k);
    }
  }

  lemma StripOne(s: string, k: nat)
    requires k > 0
    ensures StripTrailingZeros(s + Zeros(k)) == StripTrailingZeros(s + Zeros(k - 1))
  {
    var u := s + Zeros(k - 1);
    var t := s + Zeros(k);
    assert t == u + ['0'];
    assert t[..|t| - 1] == u;
  }

  /** The toString of m/10^8 for a given whole part and fraction digits. */
  lemma FixedText(m: nat, whole: string, fraction: string)
    requires m % 100000000 != 0
    requires NatToString(m / 100000000) == whole && FractionText(m) == fraction
    ensures FixedString(m) == whole + "." + fraction
  {
  }
}

=== FILE: ScientificNotation.dfy ===
/**
 * The rounding behind `Number.prototype.toExponential(6)`: a positive value
 * written with seven significant digits, significand·10^(exponent - 6), the
 * significand the integer nearest to the value in units of the last digit
 * (`Math.round`, a half going up).
 */
module ScientificNotation {
  import opened Decimal

  /** `Math.round`: the nearest integer, a half rounding towards +Infinity. */
  function MathRound(x: real): (n: int)
    ensures x - 0.5 < n as real <= x + 0.5
  {
    (x + 0.5).Floor
  }

  lemma ReciprocalShrinks(x: real)
    requires 0.0 < x < 1.0
    ensures 0 <= (1.0 / (10.0 * x)).Floor < (1.0 / x).Floor
  {
    var y := 1.0 / x;
    assert y > 1.0;
    assert 1.0 / (10.0 * x) == y / 10.0;
  }

  /** The decimal exponent of a positive value: the e with 10^e <= x < 10^(e+1). */
  function DecimalExponent(x: real): (e: int)
    requires x > 0.0
    ensures Pow10(e) <= x < Pow10(e + 1)
    decreases if x >= 10.0 then x.Floor else if x < 1.0 then (1.0 / x).Floor else 0
  {
    if x >= 10.0 then
      var e := DecimalExponent(x / 10.0);
      Pow10Succ(e);
      Pow10Succ(e + 1);
      e + 1
    else if x < 1.0 then
      ReciprocalShrinks(x);
      var e := DecimalExponent(10.0 * x);
      Pow10Succ(e - 1);
      Pow10Succ(e);
      e - 1
    else
      Pow10Succ(0);
      0
  }

  /** Only one exponent brackets a value. */
  lemma DecimalExponentUnique(x: real, e: int)
    requires x > 0.0
    requires Pow10(e) <= x < Pow10(e + 1)
    ensures DecimalExponent(x) == e
  {
    var d := DecimalExponent(x);
    if d + 1 < e {
      Pow10Monotone(d + 1, e);
    } else if e + 1 < d {
      Pow10Monotone(e + 1, d);
    }
  }

  /** A value written as significand·10^(exponent - 6), as toExponential(6) prints it. */
  datatype Scientific = Scientific(significand: nat, exponent: int)

  /** The value a Scientific denotes. */
  function ScientificValue(p: Scientific): real
  {
    Scaled(p.significand, p.exponent - 6)
  }

  lemma Pow10Down6(e: int)
    ensures Pow10(e) == 1000000.0 * Pow10(e - 6)
  {
    Pow10Succ(e - 6);
    Pow10Succ(e - 5);
    Pow10Succ(e - 4);
    Pow10Succ(e - 3);
    Pow10Succ(e - 2);
    Pow10Succ(e - 1);
  }

  lemma MulLess(a: real, b: real, q: real)
    requires a < b && q > 0.0
    ensures a * q < b * q
  {
    assert (b - a) * q > 0.0;
  }

  lemma MulAtMost(a: real, b: real, q: real)
    requires a <= b && q > 0.0
    ensures a * q <= b * q
  {
    assert (b - a) * q >= 0.0;
  }

  lemma QuotientBounds(x: real, q: real)
    requires q > 0.0 && 1000000.0 * q <= x < 10000000.0 * q
    ensures 1000000.0 <= x / q < 10000000.0
  {
    var a := x / q;
    assert a * q == x;
    if a < 1000000.0 {
      MulLess(a, 1000000.0, q);
    }
    if a >= 10000000.0 {
      MulAtMost(10000000.0, a, q);
    }
  }

  lemma ScaleRounding(x: real, q: real, n: int)
    requires q > 0.0 && x / q - 0.5 < n as real <= x / q + 0.5
    ensures x - q / 2.0 < n as real * q <= x + q / 2.0
  {
    var a := x / q;
    assert a * q == x;
    MulLess(a - 0.5, n as real, q);
    MulAtMost(n as real, a + 0.5, q);
  }

  /**
   * p is as near to x as seven significant digits at p's exponent allow:
   * within half a unit of the last digit, a tie going to the larger value.
   */
  predicate Nearest(x: real, p: Scientific)
  {
    var unit := Pow10(p.exponent - 6);
    x - unit / 2.0 < ScientificValue(p) <= x + unit / 2.0
  }

  /** Rounding x/q to an integer, for x between 10^6·q and 10^7·q. */
  lemma RoundedQuotient(x: real, q: real, n: int)
    requires q > 0.0 && 1000000.0 * q <= x < 10000000.0 * q
    requires n == MathRound(x / q)
    ensures 1000000 <= n <= 10000000
    ensures x - q / 2.0 < n as real * q <= x + q / 2.0
  {
    QuotientBounds(x, q);
    ScaleRounding(x, q, n);
  }

  /** x has decimal exponent e: it lies between 10^6 and 10^7 units of 10^(e-6). */
  lemma ExponentUnits(x: real, e: int)
    requires Pow10(e) <= x < Pow10(e + 1)
    ensures 1000000.0 * Pow10(e - 6) <= x < 10000000.0 * Pow10(e - 6)
  {
    Pow10Down6(e);
    Pow10Succ(e);
  }

  /** Rounding x/10^(e-6) to an integer, for x with decimal exponent e. */
  lemma RoundedSignificand(x: real, e: int, n: int)
    requires Pow10(e) <= x < Pow10(e + 1)
    requires n == MathRound(x / Pow10(e - 6))
    ensures 1000000 <= n <= 10000000
    ensures Nearest(x, Scientific(n, e))
  {
    var q := Pow10(e - 6);
    ExponentUnits(x, e);
    RoundedQuotient(x, q, n);
    NearestWithin(x, n, e, q);
  }

  lemma NearestWithin(x: real, n: nat, e: int, q: real)
    requires q == Pow10(e - 6) && x - q / 2.0 < n as real * q <= x + q / 2.0
    ensures Nearest(x, Scientific(n, e))
  {
    ScaledIsProduct(n, e - 6);
  }

  /** A significand that rounds up to 10^7 becomes 10^6 with the next exponent. */
  lemma CarrySignificand(x: real, e: int)
    requires Nearest(x, Scientific(10000000, e))
    ensures Nearest(x, Scientific(1000000, e + 1))
    ensures ScientificValue(Scientific(1000000, e + 1)) == ScientificValue(Scientific(10000000, e))
  {
    ScaledIsProduct(10000000, e - 6);
    ScaledIsProduct(1000000, e - 5);
    Pow10Succ(e - 6);
  }

  /**
   * p writes x with seven significant digits: a seven-digit significand, the
   * decimal exponent of x (or the next one, when rounding carries into an
   * eighth digit), and a value within half a unit of the seventh significant
   * digit of x, a tie going to the larger value.
   */
  predicate SevenDigitsOf(x: real, p: Scientific)
    requires x > 0.0
  {
    var e := DecimalExponent(x);
    var unit := Pow10(e - 6);
    1000000 <= p.significand < 10000000 && (p.exponent == e || p.exponent == e + 1)
    && x - unit / 2.0 < ScientificValue(p) <= x + unit / 2.0
  }

  /** p counted in units of 10^(e-6). */
  function Units(p: Scientific, e: int): nat
  {
    if p.exponent == e then p.significand else 10 * p.significand
  }

  lemma UnitsValue(p: Scientific, e: int)
    requires p.exponent == e || p.exponent == e + 1
    ensures ScientificValue(p) == Scaled(Units(p, e), e - 6)
  {
    if p.exponent == e + 1 {
      ScaledShift(p.significand, e - 6);
    }
  }

  /** Two whole multiples of 10^k in one half-open interval of width 10^k are equal. */
  lemma SameUnits(a: int, b: int, k: int, x: real)
    requires x - Pow10(k) / 2.0 < Scaled(a, k) <= x + Pow10(k) / 2.0
    requires x - Pow10(k) / 2.0 < Scaled(b, k) <= x + Pow10(k) / 2.0
    ensures a == b
  {
    ScaledIsProduct(1, k);
    if a < b {
      ScaledDifference(a, b, k);
      ScaledAtLeastUnit(b - a, k);
    } else if b < a {
      ScaledDifference(b, a, k);
      ScaledAtLeastUnit(a - b, k);
    }
  }

  /** At most one Scientific writes x with seven significant digits. */
  lemma SevenDigitsUnique(x: real, p: Scientific, p': Scientific)
    requires x > 0.0 && SevenDigitsOf(x, p) && SevenDigitsOf(x, p')
    ensures p == p'
  {
    var e := DecimalExponent(x);
    UnitsWindow(x, p, e);
    UnitsWindow(x, p', e);
    SameUnits(Units(p, e), Units(p', e), e - 6, x);
    UnitsDetermine(p, p', e);
  }

  /** Counted in units of the seventh significant digit, p lies within half a unit of x. */
  lemma UnitsWindow(x: real, p: Scientific, e: int)
    requires x > 0.0 && SevenDigitsOf(x, p) && e == DecimalExponent(x)
    ensures x - Pow10(e - 6) / 2.0 < Scaled(Units(p, e), e - 6) <= x + Pow10(e - 6) / 2.0
    ensures 1000000 <= p.significand < 10000000 && (p.exponent == e || p.exponent == e + 1)
  {
    UnitsValue(p, e);
  }

  /** A seven-digit significand at exponent e or e + 1 is fixed by its count of units. */
  lemma UnitsDetermine(p: Scientific, p': Scientific, e: int)
    requires 1000000 <= p.significand < 10000000 && (p.exponent == e || p.exponent == e + 1)
    requires 1000000 <= p'.significand < 10000000 && (p'.exponent == e || p'.exponent == e + 1)
    requires Units(p, e) == Units(p', e)
    ensures p == p'
  {
  }

  /**
   * The significand and exponent toExponential(6) chooses for a positive
   * value: seven significant digits, the significand·10^(exponent - 6)
   * nearest to x, the larger one when two are equally near.
   */
  function Significand7(x: real): (p: Scientific)
    requires x > 0.0
    ensures 1000000 <= p.significand < 10000000
    ensures Nearest(x, p)
    ensures SevenDigitsOf(x, p)
  {
    var e := DecimalExponent(x);
    var n := MathRound(x / Pow10(e - 6));
    RoundedSignificand(x, e, n);
    if n == 10000000 then
      CarrySignificand(x, e);
      Scientific(1000000, e + 1)
    else
      Scientific(n, e)
  }
}
